=== FILE: README.md ===
# s3-data-merge, modelled in Dafny

s3-data-merge is a small service. When a CSV file lands in an S3 bucket under
`user/`, it merges the file into a "master" CSV under `mstr/`.
A master file is keyed by a primary-key column. The merge is an upsert:
- staging rows replace master rows with the same key;
- staging rows with a new key are appended.

This project models the two parts of the service whose behaviour is precise:

- **File-type resolution** (`lookup_file`, `create_new_file_type`).
  - A fixed, ordered registry of `FileType` entries is matched against the
    object key with `fnmatch`, and the first match wins.
  - With no match, a file type is synthesized from any key under `user/`.
  - `FileType` equality looks at four of its six fields.
- **The merge engine** (`merge_to_mstr`, with `s3_file_exists` and
  `get_dataframe`).
  - Two preconditions are checked in order, each with its own status string.
  - Staging rows are deduplicated keeping the last row per key.
  - The new master is `master ++ staging`, deduplicated keeping the last row per key.
  - Statistics come from join cardinalities and go into a
    `FileProcessingData` record, which has a fixed text rendering.

Modules:

| file | module | content |
|---|---|---|
| wrappers.dfy | `Wrappers` | `Option`. `None` also stands for an argument of the wrong Python type. |
| text.dfy | `Text` | Prefix and suffix tests. `str.replace` (every occurrence), `str.split` and `str.join`. `'{}'.format` of a natural number. |
| lex_order.dfy | `LexOrder` | Lexicographic key order, which is S3's listing order. Sorted insertion. |
| glob.dfy | `Glob` | `fnmatch` for patterns built from literal characters and `*`. |
| file_types.dfy | `FileTypes` | The `FileType` record and its `__eq__`. |
| file_processing_data.dfy | `FileProcessingData` | The statistics record, its defaults and its `__str__`. |
| tables.dfy | `Tables` | Rows with a key and an opaque payload. `drop_duplicates(keep='last')`. The upsert. Column union. |
| joins.dfy | `Joins` | Row counts of pandas inner and right joins on the key. |
| object_store.dfy | `ObjectStore` | Buckets (sorted listing plus objects), `s3_file_exists`, the overwrite done by `to_csv`. |
| s3_functions.dfy | `S3Functions` | `lookup_file`, `create_new_file_type`, `get_dataframe`, the statistics and `merge_to_mstr`. |
| resolution.dfy | `Resolution` | Which keys resolve, and to what. The cases the unit tests pin down. |
| merge_properties.dfy | `MergeProperties` | What a successful merge writes and counts. When a merge succeeds. Merging twice. |

Conventions:
- A table is a column list plus a sequence of rows. A row is a key plus an opaque payload.
- A stored object holds either its parsed table or the kind of failure that
  reading it raises, together with its byte size (`content_length`).
- The byte size of the freshly written master is a parameter of the merge,
  because the store reports it after the write.
- `merge_to_mstr` returns only a status string. The model also returns the
  statistics record it logs and the store after the merge.

## Model

| member | source | states |
|---|---|---|
| FileTypes.Equals | classes/file_types.py:10-12 | Two file types are equal exactly when they differ at most in delimiter and text qualifier. |
| FileTypes.FormattingIgnored | classes/file_types.py:10-12 | Changing only delimiter and qualifier keeps a file type equal to the original. |
| FileTypes.EqualsIsEquivalence | classes/file_types.py:10-12 | Equality is reflexive, symmetric and transitive. |
| FileTypes.SameArgumentsEqual | tests/unit_tests.py:73-76 | Two file types built from the same six arguments compare equal. |
| FileProcessingData.DefaultsAreZero | classes/file_processing_data.py:3-34 | A record built from the two names alone has those names and 0 in all 13 counts. |
| FileProcessingData.Render | classes/file_processing_data.py:36-52 | The text opens with the `stg_file_name: <name> \n` line and ends in a newline. Its full line structure is stated by RenderLines. |
| FileProcessingData.ConcatIsJoin | classes/file_processing_data.py:36-52 | The lines `__str__` appends one after another make the same text as `''.join` of those lines. |
| FileProcessingData.RenderLines | classes/file_processing_data.py:36-52 | The rendering splits into exactly 15 lines, each ending in a newline, one per field in declaration order. The first is `stg_file_name: <name> \n` with its extra space; the others are `<field>: <value>\n`. |
| FileProcessingData.OnlyChangedLineDiffers | classes/file_processing_data.py:36-52 | Records that differ in one field render to lines that differ at most in that field's line. |
| FileProcessingData.SetNewFileSize | classes/file_processing_data.py:49 | Setting `mstr_new_file_size` after construction changes only its line, to the new decimal value, and does change it when the value differs. |
| Text.StartsWith | s3_functions.py:54 | `str.startswith`, the `user/` test in `create_new_file_type` and again at line 104, where failing it gives `'User object error'`. It carries no contract of its own; Text.StartsWithIndexwise states its meaning. |
| Text.StartsWithIndexwise | s3_functions.py:104 | A key starts with a prefix exactly when the prefix is no longer than the key and agrees with it character by character. |
| Text.NatToString | classes/file_processing_data.py:39-51 | `'{}'.format(n)` gives a nonempty digit string without a leading zero. |
| Text.NatToStringRoundTrip | classes/file_processing_data.py:39-51 | Reading the rendered digits back gives the number. |
| Text.NatToStringInjective | classes/file_processing_data.py:39-51 | Different counts render differently. |
| Text.ReplaceAll | s3_functions.py:57-59 | `str.replace` with a replacement of the pattern's length keeps the length, and leaves a string shorter than the pattern alone. |
| Text.ReplaceAllLeading | s3_functions.py:57-59 | An occurrence at the front is replaced, and the scan resumes after it. |
| Text.ReplaceAllCopied | s3_functions.py:57-59 | Text without the pattern's first character is copied unchanged. |
| Text.ReplaceAllAbsent | s3_functions.py:57-59 | With no occurrence of the pattern, `replace` returns its input. |
| Text.ReplaceAllAt | s3_functions.py:57-59 | When no occurrence starts inside the text before an occurrence, that text is copied, the occurrence is replaced, and the scan resumes right after it. With ReplaceAllAbsent this determines every result. |
| Text.SplitJoin | s3_functions.py:57-59 | Joining the pieces of `s.split(pat)` with `pat` gives `s` back. |
| Text.SplitPiecesFree | s3_functions.py:57-59 | No piece of `s.split(pat)` contains `pat`. |
| Glob.Match | s3_functions.py:24 | `fnmatch` for literal characters and `*`, matching the whole key. It carries no contract of its own; the Glob lemmas below state which keys each pattern shape accepts. |
| Glob.StarHeadMatch | s3_functions.py:24 | A leading `*` matches exactly when the rest of the pattern matches some suffix of the key, the whole key (empty run) and the empty suffix included. |
| Glob.LiteralHeadMatch | s3_functions.py:24 | A literal head of the pattern must equal the front of the key, and the rest of the pattern must match what follows. |
| Glob.LiteralMatch | s3_functions.py:24 | A pattern without `*` matches only the key equal to it. |
| Glob.StarLiteralMatch | s3_functions.py:24 | `*` followed by literal text matches exactly the keys ending in that text. |
| Glob.SingleStarMatch | s3_functions.py:20-24 | A pattern `pre*post` matches exactly the keys that start with `pre`, end with `post` and are at least as long as both together. |
| S3Functions.LookupFile | s3_functions.py:13-29 | A non-string key gives nothing. A key the Email CSV pattern accepts gives Email CSV. Otherwise a key the Identifier CSV pattern accepts gives Identifier CSV. Any other key gives what `create_new_file_type` makes of it. |
| S3Functions.FirstMatch | s3_functions.py:23-27 | Gives the index of the first registry entry whose pattern matches, or none when no entry matches. |
| S3Functions.LookupIn | s3_functions.py:13-29 | A non-string key gives nothing. Otherwise the result is the first matching entry, or, when nothing matches, what `create_new_file_type` makes of the key. |
| S3Functions.CreateNewFileType | s3_functions.py:48-64 | A result exists exactly for a string key under `user/`. Its pattern is the key. It uses `Id`, `,` and `"`. Its name is the key with every `user/` removed. Its master key is the key with every `user/` replaced by `mstr/`, so it lies under `mstr/` and is as long as the key. |
| S3Functions.GetDataframe | s3_functions.py:67-87 | A non-`FileType` argument gives the "None" outcome and nothing else does. An absent object, or a read failing with TypeError, AttributeError or ParamValidationError, gives the empty table with the primary key as its only column. A stored table is returned as it is. A read failing with any other error raises, as does a listed key with no stored object. Only an existing object can raise. Any other table returned is the stored one. |
| S3Functions.ObjectSize | s3_functions.py:135 | `content_length`, as read at lines 135, 140 and 154. It is None exactly when nothing is stored under the bucket and key, and otherwise it is the stored object's size. |
| S3Functions.MasterOf | s3_functions.py:98 | The master object: the staging object's bucket with the file type's master key. It carries no contract of its own. MergeProperties.ResolvedTypesWriteAsRead shows that its key differs from the staging key for every resolved type. |
| S3Functions.Statistics | s3_functions.py:118-150 | Duplicates plus distinct rows equal the staging row count. The distinct count is the number of staging keys. New records are the deduplicated staging rows whose key is absent from the master. |
| S3Functions.MergeToMaster | s3_functions.py:90-165 | `'User file not found'` exactly when the staging object does not exist. `'User object error'` exactly when it exists but is not under `user/`. Neither of these touches the store. Past those checks, a load that raises gives `'Error'`, and loaded tables without the primary-key column give `'Key error'`. The status is always one of the five strings. A report exists exactly on `'Success'`, and then the master object holds the written size, which the report records. |
| ObjectStore.FirstWithPrefix | s3_functions.py:38 | The first listed key that starts with the prefix: every earlier key does not. |
| ObjectStore.FileExists | s3_functions.py:32-45 | True only for a known store, object and bucket whose listing holds the key; malformed inputs give false. |
| ObjectStore.ExistsIffListed | s3_functions.py:38-40 | Over a sorted listing, the first-key-under-prefix test is exactly key membership. |
| ObjectStore.ExistsIffStored | s3_functions.py:38-40 | In a well-formed store an object exists exactly when it is stored. |
| ObjectStore.PrefixMatchIsNotExistence | s3_functions.py:39 | A longer key listed under the requested key does not make the requested object exist. |
| ObjectStore.Put | s3_functions.py:153 | Writing stores the object under its key. The bucket set is unchanged. Other buckets are unchanged. The listing gains exactly that key. |
| ObjectStore.PutKeepsValid | s3_functions.py:153 | A write keeps the listing sorted and in step with the stored objects. |
| LexOrder.PrefixNotAfter | s3_functions.py:38-39 | A key never sorts before its own prefix, so an exact key is listed first under itself. |
| LexOrder.InsertSorted | s3_functions.py:153 | Inserting the written key keeps the listing sorted and adds no duplicate. |
| Tables.EmptyTable | s3_functions.py:86-87 | The fallback table has the primary key as its only column and no rows. |
| Tables.DedupLast | s3_functions.py:121 | Keep-last deduplication: no longer than its input, the same key set, every key once. |
| Tables.DropDuplicatesKeepLast | s3_functions.py:121 | A backward scan keeping each key's first sighting computes keep-last deduplication. |
| Tables.DedupLastIsKeepLast | s3_functions.py:121 | The survivors are the last row of each key, in the order of last occurrences. |
| Tables.DedupLastCharacterized | s3_functions.py:121 | A sequence has unique keys, the same keys, last rows and last-occurrence order exactly when it is the deduplicated table. |
| Tables.DedupLastCount | s3_functions.py:141-142 | The distinct row count is the number of distinct keys. |
| Tables.DedupLastIdempotent | s3_functions.py:121 | Deduplicating twice is deduplicating once. |
| Tables.Upsert | s3_functions.py:127-128 | The new master has unique keys, and its key set is the union of master and staging keys. |
| Tables.UpsertShape | s3_functions.py:127-128 | The new master is the master rows whose key staging lacks (deduplicated, in order), followed by the deduplicated staging rows. |
| Tables.UpsertRows | s3_functions.py:127-128 | A staging key carries its last staging row. Any other key carries its last master row. |
| Tables.UpsertIdempotent | s3_functions.py:127-128 | Upserting the same staging rows into the result changes nothing. |
| Tables.UpsertIntoEmpty | s3_functions.py:127-128 | Upserting into no rows gives the deduplicated staging rows. |
| Tables.ColumnUnion | s3_functions.py:127 | The concatenated frame's columns are those of either frame, with the master's first and in order. |
| Tables.ColumnUnionIdempotent | s3_functions.py:127 | Concatenating the same staging columns again adds none. |
| Joins.CountKey | s3_functions.py:123 | The number of rows with a key, which is zero exactly when the key is absent. |
| Joins.InnerJoinSize | s3_functions.py:123 | The inner join is empty exactly when the two tables share no key. |
| Joins.RightJoinSize | s3_functions.py:149 | The right join has at least one row per right row, and at least as many rows as the inner join. |
| Joins.RightMinusInner | s3_functions.py:149 | Right-join size minus inner-join size counts the right rows whose key the left lacks. |
| Joins.InnerJoinUnique | s3_functions.py:123 | With unique left keys, the inner join has one row per right row whose key the left holds. |
| Joins.UpsertRowCount | s3_functions.py:127-128 | With unique master keys, the new master has the old rows plus the genuinely new staging rows. |
| Resolution.EmailPattern | s3_functions.py:20 | `user/userEmailFile*.csv` accepts exactly the keys with that prefix and suffix that are long enough for both. |
| Resolution.IdentifierPattern | s3_functions.py:21 | The same for `user/randomDataFile*.csv`. |
| Resolution.RegistryMatchIsUserKey | s3_functions.py:20-24 | Every key a registry pattern accepts lies under `user/`. |
| Resolution.ResolvesIffUserKey | s3_functions.py:13-29 | A string key resolves exactly when it lies under `user/`, and the master key then lies under `mstr/`. |
| Resolution.PlainKeySynthesis | s3_functions.py:54-63 | For `user/` + rest, with no other `user/` in the key, the name is rest and the master key is `mstr/` + rest. |
| Resolution.TwoOccurrencesRewritten | s3_functions.py:54-63 | For `user/a/user/b` with no `user/` inside `a` or `b` (as in `user/mouse/user/x.csv`), the name is `a + b` and the master key is `mstr/a/mstr/b`. |
| Resolution.UserPiecesRewritten | s3_functions.py:57-59 | Pieces free of `user/`, joined by `user/`: replacing `user/` turns every separator into the replacement and leaves the pieces alone. |
| Resolution.UserReplaceIsSplitJoin | s3_functions.py:57-59 | For every key, `key.replace("user/", rep)` equals `rep.join(key.split("user/"))`. |
| Resolution.EveryOccurrenceRewritten | s3_functions.py:54-63 | For every key under `user/`, split at its occurrences of `user/`: the name is the pieces run together, and the master key is the pieces joined by `mstr/`. The first piece is empty. |
| Resolution.EmailKeyResolves | s3_functions.py:20-27 | A key of the Email CSV shape resolves to the Email CSV entry. |
| Resolution.LookupKnownExamples | tests/unit_tests.py:78-86 | `user/userEmailFile.csv` and `user/userEmailFile_PatternMatching.csv` both resolve to Email CSV. |
| Resolution.LookupMissExamples | tests/unit_tests.py:88-104 | `somejunkfile.csv` and a non-string key resolve to nothing. |
| Resolution.LookupUnknownExample | tests/unit_tests.py:93-96 | `user/unit_test.csv` resolves to a synthesized type equal to the expected one. |
| Resolution.CreateNewFileTypeRejects | tests/unit_tests.py:145-159 | `junk.csv`, the empty key and a non-string give nothing. |
| Resolution.CreateNewFileTypeExample | tests/unit_tests.py:141-143 | `user/unit_test.csv` gives exactly the expected file type. |
| MergeProperties.ResolvedTypesWriteAsRead | s3_functions.py:13-29 | Every file type `lookup_file` returns reads with `,` and `"`, as `to_csv` writes at line 153, and has a master key different from the staging key. |
| MergeProperties.NewRecordsAreNewKeys | s3_functions.py:149 | `new_record_count` is the number of staging keys the old master lacks. |
| MergeProperties.UpdatesAreSharedKeys | s3_functions.py:123 | With unique master keys, `update_count` is the number of staging keys the master already holds. |
| MergeProperties.StatisticsCounts | s3_functions.py:136-150 | Expresses the report's counts through the key sets. The new row count is the size of the union of the key sets. The column count never shrinks. |
| MergeProperties.StatisticsUniqueMaster | s3_functions.py:123-149 | With unique master keys, updates plus new records equal the distinct staging rows. The master grows by exactly the new records. |
| MergeProperties.MergeSuccessWrites | s3_functions.py:108-154 | On success, both tables loaded and carry the primary key. The master object holds their upsert under the column union. The report counts those tables. |
| MergeProperties.MergeSuccessIff | s3_functions.py:100-165 | In a well-formed store, success holds exactly when the staging object exists under `user/`, both tables load, and both have the key column. |
| MergeProperties.MergeIntoMissingMaster | s3_functions.py:127-150 | A first merge writes the deduplicated staging rows. Previous size and row count are 0, there is one previous column, no updates, and every distinct row is new. |
| MergeProperties.StoreAfterMerge | s3_functions.py:127-154 | For a file type read with `,` and `"`, the defaults `to_csv` writes with: after a successful merge the store is still well formed. The staging object is unchanged and the master object loads as the table just written. |
| MergeProperties.SecondRunCounts | s3_functions.py:123-149 | Merging staging rows into a master that already holds their upsert counts every distinct staging key as an update and adds no row. |
| MergeProperties.MergeTwice | s3_functions.py:90-165 | For a file type read with `,` and `"`: merging the same staging file again succeeds and writes the same master. Every distinct staging row counts as an update and none as new. |
| MergeProperties.DedupExample | s3_functions.py:121 | Two rows with one key load as the later row. |
| MergeProperties.UpsertExample | s3_functions.py:127-128 | `{k1:a, k2:b}` upserted with `{k2:c, k3:d}` gives `{k1:a, k2:c, k3:d}`. |
| MergeProperties.UpsertExampleStatistics | s3_functions.py:123-149 | That merge reports one update, one new record, three rows and no duplicates. |

## Left out

- The SQS polling loop, message parsing, configuration, logging and the
  `app.py` glue are I/O and are not modelled. `S3Object` (classes/s3_object.py)
  is not part of this model beyond its bucket and key.
- The model follows the code on these points:
  - The precondition statuses are `'User file not found'` and `'User object error'`.
  - `create_new_file_type` rewrites every `user/` in the key, not only the leading one.
  - `get_dataframe` recovers only from TypeError, AttributeError and
    ParamValidationError. Any other read failure propagates and ends the merge
    with `'Error'`.
  - The merge writes the master at line 153 and only then reads its size at
    line 154, inside the same `try`.
- CSV parsing and writing are not modelled: quoting, delimiters, dtype
  inference, NaN keys and duplicate column names. A stored object holds its
  parsed table, and writing a table stores that table unchanged.
- That last simplification holds in the code only for file types whose
  delimiter is `,` and whose qualifier is `"`. The master is written at line
  153 with `to_csv`'s defaults, `,` and `"`, but read at lines 77-79 with the
  file type's own delimiter and qualifier. Every file type `lookup_file`
  returns uses `,` and `"` (MergeProperties.ResolvedTypesWriteAsRead). MergeProperties.StoreAfterMerge and
  MergeProperties.MergeTwice, which read the written master back, require
  this (`WritesAsItReads`).
- Which pandas call raises which exception is not modelled. An unreadable
  object, or a missing primary-key column, ends the merge with `'Error'` or
  `'Key error'` as the code's handlers map them. A pandas failure after both
  tables have loaded is not modelled either. For example, the inner merge at
  line 123 raises ValueError when the key columns' inferred dtypes differ, which
  ends in `'Error'` at lines 162-164. MergeProperties.MergeSuccessIff holds
  within this abstraction.
- `fnmatch` features the registry never uses are not modelled: `?`, `[...]`
  classes and case folding on Windows.
- An unknown bucket is treated as holding no objects. In S3 it raises an error,
  which `s3_file_exists` does not catch.
- A ParamValidationError raised by the existence check at line 100 is not
  modelled. It escapes the merge.
- S3Functions.MergeToMaster: does not model a failure of the write at line 153
  or of the size read at line 154 after it. The model assumes the write
  succeeds and the store reports `writtenSize`.
- MergeProperties.MergeTwice: requires the master key to differ from the
  staging key and the store to be well formed. Otherwise the first merge may
  overwrite the staging object itself. It also requires a file type read with
  `,` and `"`, as explained above.
- Text.ReplaceAll: its contract states only length facts. Its meaning is
  stated by two lemmas. Text.ReplaceAllAbsent: text without an occurrence is
  returned unchanged. Text.ReplaceAllAt: text before the first occurrence is
  copied, that occurrence is replaced, and the scan resumes after it. For the
  pattern `user/`, Resolution.UserReplaceIsSplitJoin states it for every
  key as `rep.join(key.split("user/"))`.
- FileProcessingData.RenderLines: stated for file names without a newline
  character. A name holding one would split into extra lines, so the
  line-by-line reading of the rendering needs that. The same holds for
  FileProcessingData.OnlyChangedLineDiffers and
  FileProcessingData.SetNewFileSize.

=== FILE: file_processing_data.dfy ===
/** The statistics record of one merge run and its text rendering. */
module FileProcessingData {
  import opened Text

  /** Only the two file names are required; every count and byte size
      defaults to 0. Each argument is stored unchanged in its field. */
  datatype Report = Report(
    stgFileName: string,
    mstrFileName: string,
    stgRowCount: nat := 0,
    stgColumnCount: nat := 0,
    stgFileSize: nat := 0,
    stgDuplicates: nat := 0,
    stgDistinctRowCount: nat := 0,
    mstrPrevRowCount: nat := 0,
    mstrPrevColumnCount: nat := 0,
    mstrPrevFileSize: nat := 0,
    mstrNewRowCount: nat := 0,
    mstrNewColumnCount: nat := 0,
    mstrNewFileSize: nat := 0,
    updateCount: nat := 0,
    newRecordCount: nat := 0)

  const FieldCount: nat := 15

  /** Field labels in declaration order, as they appear in the rendering. */
  const FieldNames: seq<string> := [
    "stg_file_name", "mstr_file_name", "stg_row_count", "stg_column_count",
    "stg_file_size", "stg_duplicates", "stg_distinct_row_count",
    "mstr_prev_row_count", "mstr_prev_column_count", "mstr_prev_file_size",
    "mstr_new_row_count", "mstr_new_column_count", "mstr_new_file_size",
    "update_count", "new_record_count"]

  /** Index of `mstr_new_file_size`, the one field set after construction. */
  const NewFileSizeField: nat := 12

  /** The numeric field at position `i` (2 to 14) in declaration order. */
  function CountField(r: Report, i: nat): nat
    requires 2 <= i < FieldCount
  {
    match i
    case 2 => r.stgRowCount
    case 3 => r.stgColumnCount
    case 4 => r.stgFileSize
    case 5 => r.stgDuplicates
    case 6 => r.stgDistinctRowCount
    case 7 => r.mstrPrevRowCount
    case 8 => r.mstrPrevColumnCount
    case 9 => r.mstrPrevFileSize
    case 10 => r.mstrNewRowCount
    case 11 => r.mstrNewColumnCount
    case 12 => r.mstrNewFileSize
    case 13 => r.updateCount
    case _ => r.newRecordCount
  }

  /** `'{}'.format(value)` of the field at position `i`. */
  function FieldText(r: Report, i: nat): string
    requires i < FieldCount
  {
    if i == 0 then r.stgFileName
    else if i == 1 then r.mstrFileName
    else NatToString(CountField(r, i))
  }

  /** One line of `__str__`; the first carries a space before its newline. */
  function Line(r: Report, i: nat): string
    requires i < FieldCount
  {
    FieldNames[i] + ": " + FieldText(r, i) + (if i == 0 then " \n" else "\n")
  }

  /** The fifteen lines in declaration order. */
  function Lines(r: Report): (lines: seq<string>)
    ensures |lines| == FieldCount
  {
    seq(FieldCount, i requires 0 <= i < FieldCount => Line(r, i))
  }

  /** Joins pieces of text end to end. */
  function Concat(pieces: seq<string>): string {
    if |pieces| == 0 then "" else pieces[0] + Concat(pieces[1..])
  }

  /** Concat is `Text.Join` with the empty separator. It is kept as its own
      function because it appends one line per step, as `__str__` does, and
      the line-by-line proofs below follow that shape. */
  lemma {:induction false} ConcatIsJoin(pieces: seq<string>)
    ensures Concat(pieces) == Join(pieces, "")
    decreases |pieces|
  {
    if |pieces| == 1 {
      assert Concat(pieces) == pieces[0] + "";
    } else if |pieces| > 1 {
      ConcatIsJoin(pieces[1..]);
      assert pieces[0] + "" + Join(pieces[1..], "") == pieces[0] + Join(pieces[1..], "");
    }
  }

  /** The last character of the joined text is that of the last piece. */
  lemma {:induction false} ConcatEndsWithLast(pieces: seq<string>)
    requires |pieces| > 0 && |pieces[|pieces| - 1]| > 0
    ensures var s := Concat(pieces);
      |s| > 0 && s[|s| - 1] == pieces[|pieces| - 1][|pieces[|pieces| - 1]| - 1]
    decreases |pieces|
  {
    if |pieces| > 1 {
      ConcatEndsWithLast(pieces[1..]);
      assert pieces[1..][|pieces| - 2] == pieces[|pieces| - 1];
    } else {
      assert Concat(pieces) == pieces[0] + "";
    }
  }

  /** `FileProcessingData.__str__`: the lines appended one after another.
      The text opens with the `stg_file_name` line and ends in a newline. */
  function Render(r: Report): (s: string)
    ensures StartsWith(s, Line(r, 0))
    ensures |s| > 0 && s[|s| - 1] == '\n'
  {
    var lines := Lines(r);
    assert lines[0] == Line(r, 0);
    assert lines[FieldCount - 1] == Line(r, FieldCount - 1);
    ConcatEndsWithLast(lines);
    assert (lines[0] + Concat(lines[1..]))[..|lines[0]|] == lines[0];
    Concat(lines)
  }

  /** Cuts a text after every newline; an unterminated tail is a last piece. */
  function SplitLines(s: string): (lines: seq<string>)
    decreases |s|
  {
    if |s| == 0 then []
    else
      var rest := SplitLines(s[1..]);
      if s[0] == '\n' || |rest| == 0 then [[s[0]]] + rest
      else [[s[0]] + rest[0]] + rest[1..]
  }

  /** A line is newline-terminated and holds no other newline. */
  predicate IsLine(l: string) {
    |l| > 0 && l[|l| - 1] == '\n' && '\n' !in l[..|l| - 1]
  }

  /** A piece whose only newline is its last character splits off whole. */
  lemma {:induction false} SplitLinesCons(line: string, rest: string)
    requires IsLine(line)
    ensures SplitLines(line + rest) == [line] + SplitLines(rest)
    decreases |line|
  {
    var s := line + rest;
    assert s[0] == line[0];
    if |line| == 1 {
      assert s[1..] == rest;
      assert line == [line[0]];
    } else {
      assert line[0] in line[..|line| - 1];
      assert line[1..][..|line| - 2] == line[..|line| - 1][1..];
      SplitLinesCons(line[1..], rest);
      assert s[1..] == line[1..] + rest;
      assert line == [line[0]] + line[1..];
    }
  }

  predicate SingleLine(s: string) {
    '\n' !in s
  }

  /** Neither file name contains a newline, so each field stays on its line. */
  predicate NamesAreSingleLine(r: Report) {
    SingleLine(r.stgFileName) && SingleLine(r.mstrFileName)
  }

  lemma DigitsSingleLine(s: string)
    requires IsDigits(s)
    ensures SingleLine(s)
  {
  }

  /** No field label holds a newline. */
  lemma LabelsSingleLine(i: nat)
    requires i < FieldCount
    ensures SingleLine(FieldNames[i])
  {
  }

  /** Each line ends in its only newline. */
  lemma LineShape(r: Report, i: nat)
    requires i < FieldCount && NamesAreSingleLine(r)
    ensures IsLine(Line(r, i))
  {
    var name, text := FieldNames[i], FieldText(r, i);
    var tail := if i == 0 then " " else "";
    var body := name + ": " + text + tail;
    assert Line(r, i) == body + "\n";
    assert (body + "\n")[..|body|] == body;
    LabelsSingleLine(i);
    if i >= 2 {
      DigitsSingleLine(text);
    }
    assert SingleLine(text);
    assert SingleLine(": ") && SingleLine(tail);
    assert body == name + (": " + (text + tail));
  }

  /** Splitting a concatenation of lines gives the lines back. */
  lemma {:induction false} SplitConcat(lines: seq<string>)
    requires forall i :: 0 <= i < |lines| ==> IsLine(lines[i])
    ensures SplitLines(Concat(lines)) == lines
  {
    if |lines| > 0 {
      SplitConcat(lines[1..]);
      SplitLinesCons(lines[0], Concat(lines[1..]));
    }
  }

  lemma SplitRender(r: Report)
    requires NamesAreSingleLine(r)
    ensures SplitLines(Render(r)) == Lines(r)
  {
    var lines := Lines(r);
    forall i | 0 <= i < |lines| ensures IsLine(lines[i]) {
      LineShape(r, i);
    }
    SplitConcat(lines);
  }

  /** `__str__` is exactly fifteen newline-terminated lines, one per field in
      declaration order, each `<field>: <value>` and the first with an extra
      space before its newline. */
  lemma RenderLines(r: Report)
    requires NamesAreSingleLine(r)
    ensures var lines := SplitLines(Render(r));
      && |lines| == 15
      && (forall i :: 0 <= i < |lines| ==> |lines[i]| > 0 && lines[i][|lines[i]| - 1] == '\n')
      && lines[0] == "stg_file_name: " + r.stgFileName + " \n"
      && lines[1] == "mstr_file_name: " + r.mstrFileName + "\n"
      && (forall i :: 2 <= i < 15 ==> lines[i] == FieldNames[i] + ": " + NatToString(CountField(r, i)) + "\n")
  {
    SplitRender(r);
    var lines := SplitLines(Render(r));
    forall i | 0 <= i < |lines|
      ensures |lines[i]| > 0 && lines[i][|lines[i]| - 1] == '\n'
    {
      LineShape(r, i);
    }
  }

  /** Two reports whose fields agree except at position `i` render to the
      same lines except line `i`. */
  lemma OnlyChangedLineDiffers(r: Report, r2: Report, i: nat)
    requires NamesAreSingleLine(r) && NamesAreSingleLine(r2) && i < FieldCount
    requires forall j :: 0 <= j < FieldCount && j != i ==> FieldText(r, j) == FieldText(r2, j)
    ensures |SplitLines(Render(r))| == |SplitLines(Render(r2))| == FieldCount
    ensures forall j :: 0 <= j < FieldCount && j != i ==> SplitLines(Render(r))[j] == SplitLines(Render(r2))[j]
  {
    SplitRender(r);
    SplitRender(r2);
  }

  /** Two count lines under the same label are equal only for equal
      counts. */
  lemma CountLineInjective(name: string, m: nat, n: nat)
    requires name + ": " + NatToString(m) + "\n" == name + ": " + NatToString(n) + "\n"
    ensures m == n
  {
    var prefix := name + ": ";
    var a, b := NatToString(m), NatToString(n);
    assert |a| == |b|;
    assert a == (prefix + a + "\n")[|prefix|..|prefix| + |a|];
    assert b == (prefix + b + "\n")[|prefix|..|prefix| + |b|];
    NatToStringInjective(m, n);
  }

  /** The `mstr_new_file_size` line shows the field's value. */
  lemma NewSizeLine(r: Report)
    ensures Lines(r)[NewFileSizeField] == "mstr_new_file_size: " + NatToString(r.mstrNewFileSize) + "\n"
  {
    assert FieldNames[NewFileSizeField] == "mstr_new_file_size";
    assert CountField(r, NewFileSizeField) == r.mstrNewFileSize;
  }

  /** Setting `mstr_new_file_size` leaves every other field's text alone. */
  lemma OtherFieldsKept(r: Report, size: nat)
    ensures forall j :: 0 <= j < FieldCount && j != NewFileSizeField ==>
                          FieldText(r, j) == FieldText(r.(mstrNewFileSize := size), j)
  {
  }

  /** Setting `mstr_new_file_size` after construction rewrites line 13 of the
      rendering and no other; a different size gives a different line. */
  lemma SetNewFileSize(r: Report, size: nat)
    requires NamesAreSingleLine(r)
    ensures var before := SplitLines(Render(r));
      var after := SplitLines(Render(r.(mstrNewFileSize := size)));
      && |before| == |after| == FieldCount
      && (forall j :: 0 <= j < FieldCount && j != NewFileSizeField ==> after[j] == before[j])
      && after[NewFileSizeField] == "mstr_new_file_size: " + NatToString(size) + "\n"
      && (size != r.mstrNewFileSize ==> after[NewFileSizeField] != before[NewFileSizeField])
  {
    var r2 := r.(mstrNewFileSize := size);
    OtherFieldsKept(r, size);
    SplitRender(r);
    SplitRender(r2);
    forall j | 0 <= j < FieldCount && j != NewFileSizeField ensures Lines(r2)[j] == Lines(r)[j] {
      assert FieldText(r2, j) == FieldText(r, j);
    }
    NewSizeLine(r);
    NewSizeLine(r2);
    if Lines(r2)[NewFileSizeField] == Lines(r)[NewFileSizeField] {
      CountLineInjective("mstr_new_file_size", size, r.mstrNewFileSize);
    }
  }

  /** Only the two names are needed: every count and size starts at 0. */
  lemma DefaultsAreZero(stg: string, mstr: string)
    ensures var r := Report(stg, mstr);
      r.stgFileName == stg && r.mstrFileName == mstr
      && forall i :: 2 <= i < FieldCount ==> CountField(r, i) == 0
  {
  }
}

=== FILE: file_types.dfy ===
/** The merge configuration for one kind of incoming file. */
module FileTypes {

  /** All six constructor arguments are stored verbatim in the same-named
      fields. */
  datatype FileType = FileType(
    fileProcessName: string,
    incomingFilePattern: string,
    masterFileS3Key: string,
    primaryKey: string,
    fieldDelimiter: string,
    textQualifier: string)

  /** `FileType.__eq__`: the first four fields decide, the delimiter and the
      text qualifier are ignored, so two file types compare equal exactly
      when one turns into the other by changing only those two. */
  predicate Equals(a: FileType, b: FileType): (r: bool)
    ensures r <==> a == b.(fieldDelimiter := a.fieldDelimiter, textQualifier := a.textQualifier)
  {
    && a.fileProcessName == b.fileProcessName
    && a.incomingFilePattern == b.incomingFilePattern
    && a.masterFileS3Key == b.masterFileS3Key
    && a.primaryKey == b.primaryKey
  }

  /** Changing the delimiter or the qualifier keeps a file type equal to
      itself. */
  lemma FormattingIgnored(a: FileType, delimiter: string, qualifier: string)
    ensures Equals(a, a.(fieldDelimiter := delimiter, textQualifier := qualifier))
  {
  }

  /** Equality is an equivalence relation. */
  lemma EqualsIsEquivalence(a: FileType, b: FileType, c: FileType)
    ensures Equals(a, a)
    ensures Equals(a, b) ==> Equals(b, a)
    ensures Equals(a, b) && Equals(b, c) ==> Equals(a, c)
  {
  }

  /** Two file types built from identical arguments compare equal. */
  lemma SameArgumentsEqual(name: string, pattern: string, master: string, key: string,
                           delimiter: string, qualifier: string)
    ensures Equals(FileType(name, pattern, master, key, delimiter, qualifier),
                   FileType(name, pattern, master, key, delimiter, qualifier))
  {
  }
}

=== FILE: glob.dfy ===
/** Shell-style pattern matching as done by `fnmatch.fnmatch` on a POSIX
    system, for the patterns the file-type registry uses: `*` matches any run
    of characters (including `/` and the empty run), every other character
    matches itself, case-sensitively, and the pattern must cover the whole
    name. */
module Glob {
  import opened Text

  const Star: char := '*'

  predicate Match(p: string, s: string)
    decreases |p| + |s|
  {
    if |p| == 0 then |s| == 0
    else if p[0] == Star then Match(p[1..], s) || (|s| > 0 && Match(p, s[1..]))
    else |s| > 0 && s[0] == p[0] && Match(p[1..], s[1..])
  }

  /** A pattern without `*` matches exactly the name equal to it. */
  lemma {:induction false} LiteralMatch(p: string, s: string)
    requires Star !in p
    ensures Match(p, s) <==> s == p
    decreases |p|
  {
    if |p| > 0 {
      assert p[0] != Star;
      if |s| > 0 {
        LiteralMatch(p[1..], s[1..]);
        assert s == [s[0]] + s[1..] && p == [p[0]] + p[1..];
      }
    }
  }

  /** A literal head must match the front of the name; the rest of the
      pattern then matches what follows it. */
  lemma {:induction false} LiteralHeadMatch(pre: string, q: string, s: string)
    requires Star !in pre
    ensures Match(pre + q, s) <==> StartsWith(s, pre) && Match(q, s[|pre|..])
    decreases |pre|
  {
    if |pre| == 0 {
      assert pre + q == q;
    } else {
      var p := pre + q;
      assert p[0] == pre[0] && p[0] != Star;
      assert p[1..] == pre[1..] + q;
      if |s| > 0 {
        LiteralHeadMatch(pre[1..], q, s[1..]);
        if |pre| <= |s| {
          assert s[1..][|pre| - 1..] == s[|pre|..];
        }
        assert StartsWith(s, pre) <==> s[0] == pre[0] && StartsWith(s[1..], pre[1..]) by {
          if StartsWith(s, pre) {
            assert s[1..][..|pre| - 1] == s[..|pre|][1..];
          }
          if s[0] == pre[0] && StartsWith(s[1..], pre[1..]) {
            assert s[..|pre|] == [s[0]] + s[1..][..|pre| - 1];
            assert pre == [pre[0]] + pre[1..];
          }
        }
      }
    }
  }

  /** A leading `*` lets the rest of the pattern match any suffix of the name. */
  lemma {:induction false} StarHeadMatch(q: string, s: string)
    ensures Match([Star] + q, s) <==> exists k :: 0 <= k <= |s| && Match(q, s[k..])
    decreases |s|
  {
    var p := [Star] + q;
    assert p[0] == Star && p[1..] == q;
    if |s| > 0 {
      StarHeadMatch(q, s[1..]);
      if exists k :: 0 <= k <= |s| && Match(q, s[k..]) {
        var k :| 0 <= k <= |s| && Match(q, s[k..]);
        if k > 0 {
          assert s[1..][k - 1..] == s[k..];
        } else {
          assert s[k..] == s;
        }
      }
      if Match(p, s[1..]) {
        var k :| 0 <= k <= |s[1..]| && Match(q, s[1..][k..]);
        assert s[1..][k..] == s[k + 1..];
      }
      if Match(q, s) {
        assert s[0..] == s;
      }
    } else {
      if exists k :: 0 <= k <= |s| && Match(q, s[k..]) {
        var k :| 0 <= k <= |s| && Match(q, s[k..]);
        assert s[k..] == s;
      }
    }
  }

  /** `*` followed by literal text matches exactly the names ending in it. */
  lemma StarLiteralMatch(post: string, s: string)
    requires Star !in post
    ensures Match([Star] + post, s) <==> EndsWith(s, post)
  {
    StarHeadMatch(post, s);
    if EndsWith(s, post) {
      LiteralMatch(post, s[|s| - |post|..]);
    }
    if Match([Star] + post, s) {
      var k :| 0 <= k <= |s| && Match(post, s[k..]);
      LiteralMatch(post, s[k..]);
    }
  }

  /** A pattern `pre*post` with literal `pre` and `post`, the shape of every
      registry pattern, matches exactly the names that start with `pre`, end
      with `post`, and are long enough for both not to overlap. */
  lemma SingleStarMatch(pre: string, post: string, s: string)
    requires Star !in pre && Star !in post
    ensures Match(pre + [Star] + post, s)
        <==> |pre| + |post| <= |s| && StartsWith(s, pre) && EndsWith(s, post)
  {
    assert pre + [Star] + post == pre + ([Star] + post);
    LiteralHeadMatch(pre, [Star] + post, s);
    if StartsWith(s, pre) {
      StarLiteralMatch(post, s[|pre|..]);
      EndsWithDrop(s, |pre|, post);
    }
  }
}

=== FILE: joins.dfy ===
/** Row counts of pandas joins on the primary key, which the merge uses to
    report how many staging rows updated the master and how many were new. */
module Joins {
  import opened Tables

  /** How many rows carry key `k`. */
  function CountKey(rows: seq<Row>, k: string): (n: nat)
    ensures n <= |rows|
    ensures n == 0 <==> k !in Keys(rows)
  {
    if |rows| == 0 then 0
    else
      KeysCons(rows);
      (if rows[0].key == k then 1 else 0) + CountKey(rows[1..], k)
  }

  /** In a unique-keyed table a key occurs at most once. */
  lemma {:induction false} CountKeyUnique(rows: seq<Row>, k: string)
    requires UniqueKeys(rows)
    ensures CountKey(rows, k) == if k in Keys(rows) then 1 else 0
  {
    if |rows| > 0 {
      UniqueTail(rows);
      CountKeyUnique(rows[1..], k);
    }
  }

  /** Row count of `left.merge(right, "inner", on=key)`: one output row per
      pair of a left and a right row with equal keys. */
  function InnerJoinSize(left: seq<Row>, right: seq<Row>): (n: nat)
    ensures n == 0 <==> Keys(left) * Keys(right) == {}
  {
    if |right| == 0 then
      KeysEmpty(right);
      0
    else
      KeysCons(right);
      var k, l, t := right[0].key, Keys(left), Keys(right[1..]);
      assert l * ({k} + t) == {} <==> k !in l && l * t == {} by {
        if k in l { assert k in l * ({k} + t); }
        if l * t != {} { var x :| x in l * t; assert x in l * ({k} + t); }
      }
      CountKey(left, k) + InnerJoinSize(left, right[1..])
  }

  /** Row count of `left.merge(right, "right", on=key)`: each right row pairs
      with every left row of its key, or appears once when there is none. */
  function RightJoinSize(left: seq<Row>, right: seq<Row>): (n: nat)
    ensures |right| <= n
    ensures InnerJoinSize(left, right) <= n
  {
    if |right| == 0 then 0
    else
      var c := CountKey(left, right[0].key);
      (if c == 0 then 1 else c) + RightJoinSize(left, right[1..])
  }

  /** The right join exceeds the inner join by exactly the right rows whose
      key the left side lacks; this holds whatever duplicates `left` has. */
  lemma {:induction false} RightMinusInner(left: seq<Row>, right: seq<Row>)
    ensures RightJoinSize(left, right) - InnerJoinSize(left, right)
         == |RemoveKeys(right, Keys(left))|
    ensures InnerJoinSize(left, right) <= RightJoinSize(left, right)
  {
    if |right| > 0 {
      RightMinusInner(left, right[1..]);
    }
  }

  /** Against a unique-keyed left side, inner-join rows and key-less right
      rows together account for every right row. */
  lemma {:induction false} InnerPlusAbsent(left: seq<Row>, right: seq<Row>)
    requires UniqueKeys(left)
    ensures InnerJoinSize(left, right) + |RemoveKeys(right, Keys(left))| == |right|
  {
    if |right| > 0 {
      CountKeyUnique(left, right[0].key);
      InnerPlusAbsent(left, right[1..]);
    }
  }

  /** Against a unique-keyed left side, the inner join counts the right rows
      whose key the left side has. */
  lemma InnerJoinUnique(left: seq<Row>, right: seq<Row>)
    requires UniqueKeys(left)
    ensures InnerJoinSize(left, right) == |right| - |RemoveKeys(right, Keys(left))|
  {
    InnerPlusAbsent(left, right);
  }

  /** Upserting into a unique-keyed master adds exactly the staging keys the
      master lacked. */
  lemma UpsertRowCount(master: seq<Row>, staging: seq<Row>)
    requires UniqueKeys(master)
    ensures |Upsert(master, staging)| == |master| + |RemoveKeys(DedupLast(staging), Keys(master))|
  {
    var s := DedupLast(staging);
    var added := RemoveKeys(s, Keys(master));
    var r := Upsert(master, staging);
    UniqueKeysCount(r);
    UniqueKeysCount(master);
    RemoveKeysUnique(s, Keys(master));
    UniqueKeysCount(added);
    assert Keys(r) == Keys(master) + Keys(added);
    assert Keys(master) !! Keys(added);
  }
}

=== FILE: lex_order.dfy ===
/** The order in which the object store lists keys: lexicographic by
    character code, a proper prefix sorting before its extensions. */
module LexOrder {
  import opened Text

  predicate Less(a: string, b: string)
    decreases |a|
  {
    if |a| == 0 then |b| > 0
    else |b| > 0 && (a[0] < b[0] || (a[0] == b[0] && Less(a[1..], b[1..])))
  }

  lemma {:induction false} LessIrreflexive(a: string)
    ensures !Less(a, a)
    decreases |a|
  {
    if |a| > 0 {
      LessIrreflexive(a[1..]);
    }
  }

  lemma {:induction false} LessTransitive(a: string, b: string, c: string)
    requires Less(a, b) && Less(b, c)
    ensures Less(a, c)
    decreases |a|
  {
    if |a| > 0 && a[0] == b[0] && b[0] == c[0] {
      LessTransitive(a[1..], b[1..], c[1..]);
    }
  }

  lemma {:induction false} LessTotal(a: string, b: string)
    requires a != b
    ensures Less(a, b) || Less(b, a)
    decreases |a|
  {
    if |a| > 0 && |b| > 0 && a[0] == b[0] {
      assert a == [a[0]] + a[1..] && b == [b[0]] + b[1..];
      LessTotal(a[1..], b[1..]);
    }
  }

  /** A key never sorts before one of its own prefixes. */
  lemma {:induction false} PrefixNotAfter(s: string, p: string)
    requires StartsWith(s, p)
    ensures !Less(s, p)
    decreases |p|
  {
    if |p| > 0 {
      assert s[0] == p[0];
      assert s[1..][..|p| - 1] == p[1..];
      PrefixNotAfter(s[1..], p[1..]);
    }
  }

  /** Strictly increasing, hence free of repeats. */
  predicate Sorted(xs: seq<string>) {
    forall i, j :: 0 <= i < j < |xs| ==> Less(xs[i], xs[j])
  }

  /** Adds `k` to a listing in front of the first entry that sorts after
      it; a key met before that point is not added again. */
  function Insert(xs: seq<string>, k: string): (r: seq<string>)
    ensures forall x :: x in r <==> x in xs || x == k
  {
    if |xs| == 0 then [k]
    else if xs[0] == k then xs
    else if Less(k, xs[0]) then [k] + xs
    else [xs[0]] + Insert(xs[1..], k)
  }

  /** Inserting into a sorted listing keeps it sorted, and leaves it as it
      was when the key is already listed. */
  lemma {:induction false} InsertSorted(xs: seq<string>, k: string)
    requires Sorted(xs)
    ensures Sorted(Insert(xs, k))
    ensures k in xs ==> Insert(xs, k) == xs
  {
    if |xs| == 0 {
    } else if xs[0] == k {
    } else if Less(k, xs[0]) {
      forall j | 0 <= j < |xs| ensures Less(k, xs[j]) && xs[j] != k {
        if j > 0 {
          LessTransitive(k, xs[0], xs[j]);
        }
        LessIrreflexive(k);
      }
    } else {
      LessTotal(k, xs[0]);
      InsertSorted(xs[1..], k);
      var tail := Insert(xs[1..], k);
      var r := [xs[0]] + tail;
      forall i, j | 0 <= i < j < |r| ensures Less(r[i], r[j]) {
        if i == 0 {
          assert r[j] in tail;
          if r[j] != k {
            var m :| 0 <= m < |xs[1..]| && xs[1..][m] == r[j];
            assert xs[m + 1] == r[j];
          }
        }
      }
      if k in xs {
        assert k in xs[1..];
        assert Insert(xs, k) == [xs[0]] + xs[1..];
      }
    }
  }
}

=== FILE: merge_properties.dfy ===
/** What a merge promises as a whole: when it succeeds, what it writes, what
    its statistics count, and what a second merge of the same staging object
    does. */
module MergeProperties {
  import opened Wrappers
  import opened Text
  import opened Tables
  import opened Joins
  import opened ObjectStore
  import opened FileTypes
  import opened FileProcessingData
  import opened S3Functions
  import Resolution

  /** Contents of a stored object, if it is there. */
  function ContentsAt(store: Store, obj: ObjectRef): Option<Contents> {
    var stored := StoredAt(store, obj);
    if stored.Some? then Some(stored.value.contents) else None
  }

  /** The master is written with `to_csv`'s default `,` and `"` but read
      back with the file type's own delimiter and qualifier; a written table
      reads back unchanged only when the two agree, as they do for every
      file type `lookup_file` returns. */
  predicate WritesAsItReads(fileType: FileType) {
    fileType.fieldDelimiter == "," && fileType.textQualifier == "\""
  }

  /** Every file type `lookup_file` returns reads with `,` and `"`, and its
      master key (under `mstr/`) differs from the staging key (under
      `user/`): the requires of StoreAfterMerge and MergeTwice hold for every
      resolved key. */
  lemma ResolvedTypesWriteAsRead(k: string)
    requires LookupFile(Some(k)).Some?
    ensures WritesAsItReads(LookupFile(Some(k)).value)
    ensures LookupFile(Some(k)).value.masterFileS3Key != k
  {
    var t := LookupFile(Some(k)).value;
    Resolution.ResolvesIffUserKey(k);
    assert t.masterFileS3Key[0] == 'm' && k[0] == 'u';
  }

  /** `new_record_count` counts the staging keys the old master lacks, whether
      or not the old master's own keys are unique. */
  lemma NewRecordsAreNewKeys(master: seq<Row>, staging: seq<Row>)
    ensures |RemoveKeys(DedupLast(staging), Keys(master))| == |Keys(staging) - Keys(master)|
  {
    RemoveKeysUnique(DedupLast(staging), Keys(master));
    UniqueKeysCount(RemoveKeys(DedupLast(staging), Keys(master)));
  }

  /** Each key of `a` is either missing from `b` or shared with it. */
  lemma SplitByMembership(a: set<string>, b: set<string>)
    ensures |a| == |a - b| + |a * b|
  {
    assert a == (a - b) + (a * b);
    assert (a - b) * (a * b) == {};
  }

  /** With unique master keys, `update_count` counts the staging keys the
      old master already holds. */
  lemma UpdatesAreSharedKeys(master: seq<Row>, staging: seq<Row>)
    requires UniqueKeys(master)
    ensures InnerJoinSize(master, DedupLast(staging)) == |Keys(staging) * Keys(master)|
  {
    var d := DedupLast(staging);
    InnerJoinUnique(master, d);
    NewRecordsAreNewKeys(master, staging);
    DedupLastCount(staging);
    SplitByMembership(Keys(staging), Keys(master));
  }

  /** The statistics of one merge, in terms of the two tables' key sets. */
  lemma StatisticsCounts(userKey: string, fileType: FileType, stg: Table, mstr: Table,
                         stgSize: nat, mstrPrevSize: nat)
    ensures var r := Statistics(userKey, fileType, stg, mstr, stgSize, mstrPrevSize);
      && r.stgRowCount == |stg.rows|
      && r.stgDistinctRowCount == |Keys(stg.rows)|
      && r.stgDuplicates == |stg.rows| - |Keys(stg.rows)|
      && r.mstrPrevRowCount == |mstr.rows|
      && r.mstrNewRowCount == |Keys(mstr.rows) + Keys(stg.rows)|
      && r.mstrPrevColumnCount <= r.mstrNewColumnCount
      && r.newRecordCount == |Keys(stg.rows) - Keys(mstr.rows)|
      && r.stgFileSize == stgSize && r.mstrPrevFileSize == mstrPrevSize
  {
    NewRecordsAreNewKeys(mstr.rows, stg.rows);
    UniqueKeysCount(Upsert(mstr.rows, stg.rows));
    DedupLastCount(stg.rows);
  }

  /** With unique master keys every distinct staging row is either an update
      or a new record, and the master grows by the new records. */
  lemma StatisticsUniqueMaster(userKey: string, fileType: FileType, stg: Table, mstr: Table,
                               stgSize: nat, mstrPrevSize: nat)
    requires UniqueKeys(mstr.rows)
    ensures var r := Statistics(userKey, fileType, stg, mstr, stgSize, mstrPrevSize);
      && r.updateCount == |Keys(stg.rows) * Keys(mstr.rows)|
      && r.updateCount + r.newRecordCount == r.stgDistinctRowCount
      && r.mstrNewRowCount == r.mstrPrevRowCount + r.newRecordCount
      && r.mstrNewRowCount + r.updateCount == r.mstrPrevRowCount + r.stgDistinctRowCount
  {
    UpdatesAreSharedKeys(mstr.rows, stg.rows);
    StatisticsCounts(userKey, fileType, stg, mstr, stgSize, mstrPrevSize);
    UpsertRowCount(mstr.rows, stg.rows);
    NewRecordsAreNewKeys(mstr.rows, stg.rows);
    SplitByMembership(Keys(stg.rows), Keys(mstr.rows));
  }

  /** A successful merge loaded both tables, found the primary key in both,
      wrote their upsert over the master object and reported the statistics
      of exactly those tables. */
  lemma MergeSuccessWrites(store: Store, userObject: ObjectRef, fileType: FileType, writtenSize: nat)
    requires MergeToMaster(store, userObject, fileType, writtenSize).status == StatusSuccess
    ensures var o := MergeToMaster(store, userObject, fileType, writtenSize);
      var stgLoad := GetDataframe(Some(store), Some(userObject), Some(fileType));
      var mstrLoad := GetDataframe(Some(store), Some(MasterOf(userObject, fileType)), Some(fileType));
      && stgLoad.Loaded? && mstrLoad.Loaded?
      && fileType.primaryKey in stgLoad.table.columns
      && fileType.primaryKey in mstrLoad.table.columns
      && ContentsAt(o.store, MasterOf(userObject, fileType))
         == Some(Parsed(Table(ColumnUnion(mstrLoad.table.columns, stgLoad.table.columns),
                              Upsert(mstrLoad.table.rows, stgLoad.table.rows))))
      && o.report.value.stgRowCount == |stgLoad.table.rows|
      && o.report.value.stgDistinctRowCount == |Keys(stgLoad.table.rows)|
      && o.report.value.mstrPrevRowCount == |mstrLoad.table.rows|
      && o.report.value.mstrNewRowCount == |Keys(mstrLoad.table.rows) + Keys(stgLoad.table.rows)|
      && o.report.value.newRecordCount == |Keys(stgLoad.table.rows) - Keys(mstrLoad.table.rows)|
      && o.report.value.mstrNewFileSize == writtenSize
  {
    var stgLoad := GetDataframe(Some(store), Some(userObject), Some(fileType));
    var mstrLoad := GetDataframe(Some(store), Some(MasterOf(userObject, fileType)), Some(fileType));
    var prevSize := if FileExists(Some(store), Some(MasterOf(userObject, fileType)))
                    then ObjectSize(store, MasterOf(userObject, fileType)) else Some(0);
    StatisticsCounts(userObject.key, fileType, stgLoad.table, mstrLoad.table,
                     ObjectSize(store, userObject).value, prevSize.value);
  }

  /** In a well-formed store the merge succeeds exactly when the staging
      object exists under `user/`, both tables load and both carry the
      primary key column. */
  lemma MergeSuccessIff(store: Store, userObject: ObjectRef, fileType: FileType, writtenSize: nat)
    requires ValidStore(store)
    ensures var stgLoad := GetDataframe(Some(store), Some(userObject), Some(fileType));
      var mstrLoad := GetDataframe(Some(store), Some(MasterOf(userObject, fileType)), Some(fileType));
      MergeToMaster(store, userObject, fileType, writtenSize).status == StatusSuccess
      <==> && FileExists(Some(store), Some(userObject))
           && StartsWith(userObject.key, UserPrefix)
           && stgLoad.Loaded? && mstrLoad.Loaded?
           && fileType.primaryKey in stgLoad.table.columns
           && fileType.primaryKey in mstrLoad.table.columns
  {
    ExistsIffStored(store, userObject);
    ExistsIffStored(store, MasterOf(userObject, fileType));
  }

  /** The first merge into a master that does not exist yet: the master
      starts as the empty table, so the written master is the deduplicated
      staging table and every distinct staging row is new. */
  lemma MergeIntoMissingMaster(store: Store, userObject: ObjectRef, fileType: FileType, writtenSize: nat)
    requires !FileExists(Some(store), Some(MasterOf(userObject, fileType)))
    requires MergeToMaster(store, userObject, fileType, writtenSize).status == StatusSuccess
    ensures var o := MergeToMaster(store, userObject, fileType, writtenSize);
      var stg := GetDataframe(Some(store), Some(userObject), Some(fileType)).table;
      && ContentsAt(o.store, MasterOf(userObject, fileType))
         == Some(Parsed(Table(ColumnUnion([fileType.primaryKey], stg.columns), DedupLast(stg.rows))))
      && o.report.value.mstrPrevFileSize == 0
      && o.report.value.mstrPrevRowCount == 0
      && o.report.value.mstrPrevColumnCount == 1
      && o.report.value.updateCount == 0
      && o.report.value.newRecordCount == o.report.value.stgDistinctRowCount
      && o.report.value.mstrNewRowCount == o.report.value.stgDistinctRowCount
  {
    var stg := GetDataframe(Some(store), Some(userObject), Some(fileType)).table;
    var empty := EmptyTable(fileType.primaryKey);
    MergeSuccessWrites(store, userObject, fileType, writtenSize);
    UpsertIntoEmpty(stg.rows);
    StatisticsUniqueMaster(userObject.key, fileType, stg, empty, ObjectSize(store, userObject).value, 0);
    KeysEmpty(empty.rows);
  }

  /** What a successful merge leaves behind for the next run: a
      well-formed store in which the staging object is unchanged and the
      master object holds the table just written. */
  lemma StoreAfterMerge(store: Store, userObject: ObjectRef, fileType: FileType, size1: nat)
    requires WritesAsItReads(fileType)
    requires ValidStore(store)
    requires fileType.masterFileS3Key != userObject.key
    requires MergeToMaster(store, userObject, fileType, size1).status == StatusSuccess
    ensures var o1 := MergeToMaster(store, userObject, fileType, size1);
      var stg := GetDataframe(Some(store), Some(userObject), Some(fileType)).table;
      var mstr := GetDataframe(Some(store), Some(MasterOf(userObject, fileType)), Some(fileType)).table;
      && ValidStore(o1.store)
      && FileExists(Some(o1.store), Some(userObject))
      && ObjectSize(o1.store, userObject) == ObjectSize(store, userObject)
      && ObjectSize(o1.store, MasterOf(userObject, fileType)) == Some(size1)
      && GetDataframe(Some(o1.store), Some(userObject), Some(fileType)) == Loaded(stg)
      && GetDataframe(Some(o1.store), Some(MasterOf(userObject, fileType)), Some(fileType))
         == Loaded(Table(ColumnUnion(mstr.columns, stg.columns), Upsert(mstr.rows, stg.rows)))
  {
    var m := MasterOf(userObject, fileType);
    var o1 := MergeToMaster(store, userObject, fileType, size1);
    var stg := GetDataframe(Some(store), Some(userObject), Some(fileType)).table;
    var mstr := GetDataframe(Some(store), Some(m), Some(fileType)).table;
    var newMaster := Table(ColumnUnion(mstr.columns, stg.columns), Upsert(mstr.rows, stg.rows));
    MergeSuccessWrites(store, userObject, fileType, size1);
    assert o1.store == Put(store, m, StoredObject(Parsed(newMaster), size1));
    ExistsIffStored(store, userObject);
    ReadBackAfterPut(store, m, userObject, fileType, newMaster, size1);
  }

  /** Writing a parsed table at `m` keeps the store well formed, reads the
      table back from `m`, and leaves every other existing object of the
      bucket as it was. */
  lemma ReadBackAfterPut(store: Store, m: ObjectRef, other: ObjectRef, fileType: FileType, t: Table, size: nat)
    requires ValidStore(store)
    requires m.bucket in store.buckets && other.bucket == m.bucket && other.key != m.key
    requires other.key in store.buckets[other.bucket].objects
    ensures var s := Put(store, m, StoredObject(Parsed(t), size));
      && ValidStore(s)
      && FileExists(Some(s), Some(other))
      && ObjectSize(s, other) == ObjectSize(store, other)
      && ObjectSize(s, m) == Some(size)
      && GetDataframe(Some(s), Some(other), Some(fileType)) == GetDataframe(Some(store), Some(other), Some(fileType))
      && GetDataframe(Some(s), Some(m), Some(fileType)) == Loaded(t)
  {
    var s := Put(store, m, StoredObject(Parsed(t), size));
    PutKeepsValid(store, m, StoredObject(Parsed(t), size));
    ExistsIffStored(store, other);
    ExistsIffStored(s, other);
    ExistsIffStored(s, m);
  }

  /** The outcome of a successful merge, as the statistics and the upsert of
      the two loaded tables. */
  lemma MergeSuccessOutcome(store: Store, userObject: ObjectRef, fileType: FileType, writtenSize: nat)
    requires MergeToMaster(store, userObject, fileType, writtenSize).status == StatusSuccess
    ensures var o := MergeToMaster(store, userObject, fileType, writtenSize);
      var m := MasterOf(userObject, fileType);
      var stg := GetDataframe(Some(store), Some(userObject), Some(fileType)).table;
      var mstr := GetDataframe(Some(store), Some(m), Some(fileType)).table;
      var prevSize := if FileExists(Some(store), Some(m)) then ObjectSize(store, m).value else 0;
      && ObjectSize(store, userObject).Some?
      && (FileExists(Some(store), Some(m)) ==> ObjectSize(store, m).Some?)
      && o.report == Some(Statistics(userObject.key, fileType, stg, mstr, ObjectSize(store, userObject).value, prevSize)
                            .(mstrNewFileSize := writtenSize))
  {
  }

  /** The second run's statistics, from the key sets alone. */
  lemma SecondRunCounts(userKey: string, fileType: FileType, stg: Table, mstr: Table, stgSize: nat, prevSize: nat)
    ensures var newMaster := Table(ColumnUnion(mstr.columns, stg.columns), Upsert(mstr.rows, stg.rows));
      var r := Statistics(userKey, fileType, stg, newMaster, stgSize, prevSize);
      && r.updateCount == |Keys(stg.rows)|
      && r.newRecordCount == 0
      && r.mstrNewRowCount == r.mstrPrevRowCount
      && r.mstrPrevRowCount == |Upsert(mstr.rows, stg.rows)|
  {
    var newMaster := Table(ColumnUnion(mstr.columns, stg.columns), Upsert(mstr.rows, stg.rows));
    StatisticsUniqueMaster(userKey, fileType, stg, newMaster, stgSize, prevSize);
    var a, b := Keys(stg.rows), Keys(mstr.rows);
    assert a * (b + a) == a;
    assert a - (b + a) == {};
  }

  /** Running the same merge again on the store the first run left behind
      succeeds, writes the same master table, counts every distinct staging
      row as an update and none as new, and keeps the master row count. */
  lemma MergeTwice(store: Store, userObject: ObjectRef, fileType: FileType, size1: nat, size2: nat)
    requires WritesAsItReads(fileType)
    requires ValidStore(store)
    requires fileType.masterFileS3Key != userObject.key
    requires MergeToMaster(store, userObject, fileType, size1).status == StatusSuccess
    ensures var o1 := MergeToMaster(store, userObject, fileType, size1);
      var o2 := MergeToMaster(o1.store, userObject, fileType, size2);
      && o2.status == StatusSuccess
      && ContentsAt(o2.store, MasterOf(userObject, fileType)) == ContentsAt(o1.store, MasterOf(userObject, fileType))
      && o2.report.value.updateCount == o1.report.value.stgDistinctRowCount
      && o2.report.value.newRecordCount == 0
      && o2.report.value.mstrNewRowCount == o2.report.value.mstrPrevRowCount
      && o2.report.value.mstrPrevRowCount == o1.report.value.mstrNewRowCount
      && o2.report.value.mstrPrevFileSize == size1
  {
    var m := MasterOf(userObject, fileType);
    var o1 := MergeToMaster(store, userObject, fileType, size1);
    var stg := GetDataframe(Some(store), Some(userObject), Some(fileType)).table;
    var mstr := GetDataframe(Some(store), Some(m), Some(fileType)).table;
    var newMaster := Table(ColumnUnion(mstr.columns, stg.columns), Upsert(mstr.rows, stg.rows));
    MergeSuccessWrites(store, userObject, fileType, size1);
    StoreAfterMerge(store, userObject, fileType, size1);
    UpsertIdempotent(mstr.rows, stg.rows);
    ColumnUnionIdempotent(mstr.columns, stg.columns);
    assert Table(ColumnUnion(newMaster.columns, stg.columns), Upsert(newMaster.rows, stg.rows)) == newMaster;
    MergeSuccessIff(o1.store, userObject, fileType, size2);
    MergeSuccessWrites(o1.store, userObject, fileType, size2);
    MergeSuccessOutcome(o1.store, userObject, fileType, size2);
    ExistsIffStored(o1.store, m);
    SecondRunCounts(userObject.key, fileType, stg, mstr, ObjectSize(store, userObject).value, size1);
  }

  /** Staging `[1:x, 1:y]` loads as the single row `1:y`: the last one wins. */
  lemma DedupExample()
    ensures DedupLast([Row("1", ["x"]), Row("1", ["y"])]) == [Row("1", ["y"])]
  {
  }

  /** Master `{k1:a, k2:b}` upserted with staging `{k2:c, k3:d}` gives
      `{k1:a, k2:c, k3:d}`. */
  lemma UpsertExample(k1: string, k2: string, k3: string,
                      a: seq<string>, b: seq<string>, c: seq<string>, d: seq<string>)
    requires k1 != k2 && k2 != k3 && k1 != k3
    ensures Upsert([Row(k1, a), Row(k2, b)], [Row(k2, c), Row(k3, d)])
         == [Row(k1, a), Row(k2, c), Row(k3, d)]
  {
    var m := [Row(k1, a), Row(k2, b)];
    var s := [Row(k2, c), Row(k3, d)];
    KeysCons(s);
    KeysCons(s[1..]);
    KeysEmpty(s[2..]);
    assert Keys(s) == {k2, k3};
    DedupLastOfUnique(s);
    UpsertShape(m, s);
    assert RemoveKeys(m, Keys(s)) == [Row(k1, a)];
  }

  lemma PairKeys(k1: string, k2: string, a: seq<string>, b: seq<string>)
    requires k1 != k2
    ensures Keys([Row(k1, a), Row(k2, b)]) == {k1, k2}
    ensures UniqueKeys([Row(k1, a), Row(k2, b)])
  {
    var m := [Row(k1, a), Row(k2, b)];
    KeysCons(m);
    KeysCons(m[1..]);
    KeysEmpty(m[2..]);
  }

  /** The statistics of that merge: one update, one new record, three
      rows. */
  lemma UpsertExampleStatistics(fileType: FileType, userKey: string, stg: Table, mstr: Table,
                                k1: string, k2: string, k3: string,
                                a: seq<string>, b: seq<string>, c: seq<string>, d: seq<string>)
    requires k1 != k2 && k2 != k3 && k1 != k3
    requires mstr.rows == [Row(k1, a), Row(k2, b)] && stg.rows == [Row(k2, c), Row(k3, d)]
    ensures var r := Statistics(userKey, fileType, stg, mstr, 0, 0);
      r.updateCount == 1 && r.newRecordCount == 1 && r.mstrNewRowCount == 3 && r.stgDuplicates == 0
  {
    PairKeys(k1, k2, a, b);
    PairKeys(k2, k3, c, d);
    StatisticsUniqueMaster(userKey, fileType, stg, mstr, 0, 0);
    StatisticsCounts(userKey, fileType, stg, mstr, 0, 0);
    ThreeKeySets(k1, k2, k3);
  }

  /** Sizes of the key sets in that example. */
  lemma ThreeKeySets(k1: string, k2: string, k3: string)
    requires k1 != k2 && k2 != k3 && k1 != k3
    ensures |{k2, k3} - {k1, k2}| == 1 && |{k2, k3} * {k1, k2}| == 1
    ensures |{k1, k2} + {k2, k3}| == 3 && |{k2, k3}| == 2
  {
    assert {k2, k3} - {k1, k2} == {k3};
    assert {k2, k3} * {k1, k2} == {k2};
    assert {k1, k2} + {k2, k3} == {k1, k2, k3};
  }
}

=== FILE: object_store.dfy ===
/** The object store as the core uses it: buckets holding keyed objects, the
    sorted key listing behind `objects.filter(Prefix=...)`, the exact-key
    existence check, and the overwrite done by `to_csv`. Byte sizes are the
    store's `content_length`, taken as given. */
module ObjectStore {
  import opened Wrappers
  import opened Text
  import LexOrder
  import opened Tables

  /** `S3Object`: a bucket name and a key within it. */
  datatype ObjectRef = ObjectRef(bucket: string, key: string)

  /** How reading an object as a table can fail. */
  datatype LoadFailure =
    | HandledByLoader  // TypeError, AttributeError or ParamValidationError
    | Unhandled        // any other exception, such as a CSV parser error

  /** What `pandas.read_csv` makes of an object. */
  datatype Contents = Parsed(table: Table) | Unloadable(failure: LoadFailure)

  /** A stored object: its parsed contents and its byte size. */
  datatype StoredObject = StoredObject(contents: Contents, size: nat)

  /** The keys in listing order, and the object under each key. */
  datatype Bucket = Bucket(listing: seq<string>, objects: map<string, StoredObject>)

  datatype Store = Store(buckets: map<string, Bucket>)

  /** The object stored under `obj`, if its bucket holds one. */
  function StoredAt(store: Store, obj: ObjectRef): Option<StoredObject> {
    if obj.bucket in store.buckets && obj.key in store.buckets[obj.bucket].objects
    then Some(store.buckets[obj.bucket].objects[obj.key])
    else None
  }

  /** The listing is sorted and names exactly the stored objects. */
  ghost predicate ValidBucket(b: Bucket) {
    LexOrder.Sorted(b.listing) && forall k :: k in b.listing <==> k in b.objects
  }

  ghost predicate ValidStore(s: Store) {
    forall name :: name in s.buckets ==> ValidBucket(s.buckets[name])
  }

  /** Position of the first listed key that starts with `prefix`: the first
      entry of `objects.filter(Prefix=prefix)`. */
  function FirstWithPrefix(listing: seq<string>, prefix: string): (r: Option<nat>)
    ensures r.Some? ==> r.value < |listing| && StartsWith(listing[r.value], prefix)
    ensures r.Some? ==> forall j :: 0 <= j < r.value ==> !StartsWith(listing[j], prefix)
    ensures r.None? ==> forall j :: 0 <= j < |listing| ==> !StartsWith(listing[j], prefix)
  {
    if |listing| == 0 then None
    else if StartsWith(listing[0], prefix) then Some(0)
    else
      match FirstWithPrefix(listing[1..], prefix)
      case None => None
      case Some(i) => Some(i + 1)
  }

  /** `s3_file_exists`: true only when the first key listed under the
      object's key as prefix is that key itself. An argument of the wrong
      kind, or an unknown bucket, gives false rather than an error. */
  function FileExists(s3: Option<Store>, obj: Option<ObjectRef>): (r: bool)
    ensures r ==> s3.Some? && obj.Some? && obj.value.bucket in s3.value.buckets
    ensures r ==> obj.value.key in s3.value.buckets[obj.value.bucket].listing
  {
    if s3.None? || obj.None? || obj.value.bucket !in s3.value.buckets then false
    else
      var listing := s3.value.buckets[obj.value.bucket].listing;
      match FirstWithPrefix(listing, obj.value.key)
      case None => false
      case Some(i) => listing[i] == obj.value.key
  }

  /** Over a sorted listing the prefix scan is an exact membership test. */
  lemma ExistsIffListed(store: Store, obj: ObjectRef)
    requires obj.bucket in store.buckets
    requires LexOrder.Sorted(store.buckets[obj.bucket].listing)
    ensures FileExists(Some(store), Some(obj)) <==> obj.key in store.buckets[obj.bucket].listing
  {
    var listing := store.buckets[obj.bucket].listing;
    if obj.key in listing {
      var j :| 0 <= j < |listing| && listing[j] == obj.key;
      assert listing[j][..|obj.key|] == obj.key;
      var first := FirstWithPrefix(listing, obj.key);
      var i := first.value;
      if i < j {
        LexOrder.PrefixNotAfter(listing[i], obj.key);
      }
    }
  }

  /** In a valid store an object exists exactly when it is stored. */
  lemma ExistsIffStored(store: Store, obj: ObjectRef)
    requires ValidStore(store)
    ensures FileExists(Some(store), Some(obj))
        <==> obj.bucket in store.buckets && obj.key in store.buckets[obj.bucket].objects
  {
    if obj.bucket in store.buckets {
      ExistsIffListed(store, obj);
    }
  }

  /** A longer key under the requested one as prefix is not a match: the
      check looks at the first listed key, not at whether any was listed. */
  lemma PrefixMatchIsNotExistence()
    ensures var store := Store(map["demo" := Bucket(["data.csv.bak"], map[])]);
      && FirstWithPrefix(store.buckets["demo"].listing, "data.csv") == Some(0)
      && !FileExists(Some(store), Some(ObjectRef("demo", "data.csv")))
  {
    assert StartsWith("data.csv.bak", "data.csv");
  }

  /** Writes `contents` under the object's key, replacing what was there. */
  function Put(store: Store, obj: ObjectRef, stored: StoredObject): (s: Store)
    requires obj.bucket in store.buckets
    ensures s.buckets.Keys == store.buckets.Keys
    ensures s.buckets[obj.bucket].objects == store.buckets[obj.bucket].objects[obj.key := stored]
    ensures forall name :: name in store.buckets && name != obj.bucket ==> s.buckets[name] == store.buckets[name]
    ensures forall k :: k in s.buckets[obj.bucket].listing <==> k in store.buckets[obj.bucket].listing || k == obj.key
  {
    var b := store.buckets[obj.bucket];
    Store(store.buckets[obj.bucket := Bucket(LexOrder.Insert(b.listing, obj.key), b.objects[obj.key := stored])])
  }

  /** A write keeps the store valid. */
  lemma PutKeepsValid(store: Store, obj: ObjectRef, stored: StoredObject)
    requires obj.bucket in store.buckets && ValidStore(store)
    ensures ValidStore(Put(store, obj, stored))
  {
    LexOrder.InsertSorted(store.buckets[obj.bucket].listing, obj.key);
  }
}

=== FILE: resolution.dfy ===
/** What file-type resolution promises: which keys resolve, to which entry,
    and the cases the repository's tests pin down. */
module Resolution {
  import opened Wrappers
  import opened Text
  import opened Glob
  import opened FileTypes
  import opened S3Functions

  /** The Email CSV pattern split at its one `*`. */
  lemma EmailShape(pre: string, post: string)
    requires pre == "user/userEmailFile" && post == ".csv"
    ensures EmailCsv.incomingFilePattern == pre + [Star] + post
    ensures Star !in pre && Star !in post
  {
  }

  /** The Identifier CSV pattern split at its one `*`. */
  lemma IdentifierShape(pre: string, post: string)
    requires pre == "user/randomDataFile" && post == ".csv"
    ensures IdentifierCsv.incomingFilePattern == pre + [Star] + post
    ensures Star !in pre && Star !in post
  {
  }

  /** The Email CSV pattern accepts `user/userEmailFile<anything>.csv`.
      The entry is a parameter so that its literal pattern is not unfolded. */
  lemma EmailPattern(t: FileType, k: string)
    requires t == EmailCsv
    ensures Match(t.incomingFilePattern, k)
        <==> 22 <= |k| && StartsWith(k, "user/userEmailFile") && EndsWith(k, ".csv")
  {
    EmailShape("user/userEmailFile", ".csv");
    SingleStarMatch("user/userEmailFile", ".csv", k);
  }

  /** The Identifier CSV pattern accepts `user/randomDataFile<anything>.csv`. */
  lemma IdentifierPattern(t: FileType, k: string)
    requires t == IdentifierCsv
    ensures Match(t.incomingFilePattern, k)
        <==> 23 <= |k| && StartsWith(k, "user/randomDataFile") && EndsWith(k, ".csv")
  {
    IdentifierShape("user/randomDataFile", ".csv");
    SingleStarMatch("user/randomDataFile", ".csv", k);
  }

  /** Every key a registry pattern accepts lies under `user/`. */
  lemma RegistryMatchIsUserKey(k: string, i: nat)
    requires i < |KnownFileTypes| && Match(KnownFileTypes[i].incomingFilePattern, k)
    ensures StartsWith(k, UserPrefix)
  {
    if i == 0 {
      EmailPattern(EmailCsv, k);
      StartsWithTransitive(k, "user/userEmailFile", UserPrefix);
    } else {
      IdentifierPattern(IdentifierCsv, k);
      StartsWithTransitive(k, "user/randomDataFile", UserPrefix);
    }
  }

  /** A string key resolves to some file type exactly when it starts with
      `user/`, and the resolved master key then lies under `mstr/`. */
  lemma ResolvesIffUserKey(k: string)
    ensures LookupFile(Some(k)).Some? <==> StartsWith(k, UserPrefix)
    ensures LookupFile(Some(k)).Some? ==> StartsWith(LookupFile(Some(k)).value.masterFileS3Key, MasterPrefix)
  {
    var m := FirstMatch(KnownFileTypes, k);
    assert LookupFile(Some(k)) == if m.Some? then Some(KnownFileTypes[m.value]) else CreateNewFileType(Some(k));
    if m.Some? {
      RegistryMatchIsUserKey(k, m.value);
      assert StartsWith(EmailCsv.masterFileS3Key, MasterPrefix);
      assert StartsWith(IdentifierCsv.masterFileS3Key, MasterPrefix);
    }
  }

  /** A key with one leading `user/` and no other: the name is the rest of
      the key and the master key swaps the prefix for `mstr/`. */
  lemma PlainKeySynthesis(rest: string)
    requires !Occurs(rest, UserPrefix)
    ensures CreateNewFileType(Some(UserPrefix + rest))
         == Some(FileType(rest, UserPrefix + rest, MasterPrefix + rest, "Id", ",", "\""))
  {
    assert StartsWith(UserPrefix + rest, UserPrefix);
    ReplaceAllLeading(UserPrefix, rest, "");
    ReplaceAllLeading(UserPrefix, rest, MasterPrefix);
    ReplaceAllAbsent(rest, UserPrefix, "");
    ReplaceAllAbsent(rest, UserPrefix, MasterPrefix);
    assert "" + rest == rest;
    var t := CreateNewFileType(Some(UserPrefix + rest)).value;
    assert t.fileProcessName == ReplaceAll(UserPrefix + rest, UserPrefix, "");
    assert t.masterFileS3Key == ReplaceAll(UserPrefix + rest, UserPrefix, MasterPrefix);
  }

  /** `user/` cannot start inside a stretch free of it and run on into a
      following `user/`: no proper tail of `user/` is also its head. */
  lemma UserPrefixNotStraddled(a: string, b: string)
    requires !Occurs(a, UserPrefix)
    ensures forall i :: 0 <= i < |a| ==> !OccursAt(a + UserPrefix + b, UserPrefix, i)
  {
    var s := a + UserPrefix + b;
    forall i | 0 <= i < |a| ensures !OccursAt(s, UserPrefix, i) {
      if i + |UserPrefix| <= |a| {
        assert a[i..i + |UserPrefix|] == s[i..i + |UserPrefix|];
        assert !OccursAt(a, UserPrefix, i);
      } else if i + |UserPrefix| <= |s| {
        assert s[i..i + |UserPrefix|][|a| - i] == s[|a|];
      }
    }
  }

  /** Pieces free of `user/`, joined by `user/`: replacing `user/` swaps
      every separator for the replacement and leaves the pieces alone. */
  lemma {:induction false} UserPiecesRewritten(parts: seq<string>, rep: string)
    requires |parts| >= 1
    requires forall i :: 0 <= i < |parts| ==> !Occurs(parts[i], UserPrefix)
    ensures ReplaceAll(Join(parts, UserPrefix), UserPrefix, rep) == Join(parts, rep)
    decreases |parts|
  {
    if |parts| == 1 {
      ReplaceAllAbsent(parts[0], UserPrefix, rep);
    } else {
      var rest := Join(parts[1..], UserPrefix);
      UserPrefixNotStraddled(parts[0], rest);
      ReplaceAllAt(parts[0], rest, UserPrefix, rep);
      assert forall i :: 0 <= i < |parts[1..]| ==> parts[1..][i] == parts[i + 1];
      UserPiecesRewritten(parts[1..], rep);
    }
  }

  /** For every key, `key.replace("user/", rep)` equals
      `rep.join(key.split("user/"))`. */
  lemma UserReplaceIsSplitJoin(k: string, rep: string)
    ensures ReplaceAll(k, UserPrefix, rep) == Join(Split(k, UserPrefix), rep)
  {
    SplitJoin(k, UserPrefix);
    SplitPiecesFree(k, UserPrefix);
    UserPiecesRewritten(Split(k, UserPrefix), rep);
  }

  /** Every `user/` in a key under `user/` is rewritten, not only the
      leading one: split at its occurrences, the key's name is the pieces
      run together and its master key the pieces joined by `mstr/`. The
      first piece is the empty text before the leading `user/`. */
  lemma EveryOccurrenceRewritten(k: string)
    requires StartsWith(k, UserPrefix)
    ensures var parts := Split(k, UserPrefix);
      && |parts| >= 2 && parts[0] == ""
      && CreateNewFileType(Some(k))
         == Some(FileType(Join(parts, ""), k, Join(parts, MasterPrefix), "Id", ",", "\""))
  {
    assert k[..|UserPrefix|] == UserPrefix;
    UserReplaceIsSplitJoin(k, "");
    UserReplaceIsSplitJoin(k, MasterPrefix);
  }

  /** A key holding `user/` twice, as in `user/mouse/user/x.csv`: both
      occurrences go from the name, and both become `mstr/` in the master
      key. */
  lemma TwoOccurrencesRewritten(a: string, b: string)
    requires !Occurs(a, UserPrefix) && !Occurs(b, UserPrefix)
    ensures var k := UserPrefix + a + UserPrefix + b;
      CreateNewFileType(Some(k))
        == Some(FileType(a + b, k, MasterPrefix + a + MasterPrefix + b, "Id", ",", "\""))
  {
    var k := UserPrefix + a + UserPrefix + b;
    var parts := ["", a, b];
    assert !Occurs("", UserPrefix) by {
      assert forall j :: 0 <= j <= 0 ==> !OccursAt("", UserPrefix, j);
    }
    JoinThree("", a, b, UserPrefix);
    JoinThree("", a, b, "");
    JoinThree("", a, b, MasterPrefix);
    UserPiecesRewritten(parts, "");
    UserPiecesRewritten(parts, MasterPrefix);
    assert k[..5] == UserPrefix;
    assert "" + "" + a + "" + b == a + b;
    assert "" + MasterPrefix + a + MasterPrefix + b == MasterPrefix + a + MasterPrefix + b;
  }

  /** A key matching the Email CSV pattern resolves to that entry, the
      first in the registry. */
  lemma EmailKeyResolves(k: string)
    requires 22 <= |k| && StartsWith(k, "user/userEmailFile") && EndsWith(k, ".csv")
    ensures LookupFile(Some(k)) == Some(EmailCsv)
  {
    EmailPattern(EmailCsv, k);
  }

  /** The lookups the repository's unit tests exercise. */
  lemma LookupKnownExamples()
    ensures LookupFile(Some("user/userEmailFile.csv")) == Some(EmailCsv)
    ensures LookupFile(Some("user/userEmailFile_PatternMatching.csv")) == Some(EmailCsv)
  {
    assert StartsWith("user/userEmailFile.csv", "user/userEmailFile");
    assert EndsWith("user/userEmailFile.csv", ".csv");
    EmailKeyResolves("user/userEmailFile.csv");
    assert StartsWith("user/userEmailFile_PatternMatching.csv", "user/userEmailFile");
    assert EndsWith("user/userEmailFile_PatternMatching.csv", ".csv");
    EmailKeyResolves("user/userEmailFile_PatternMatching.csv");
  }

  lemma LookupMissExamples()
    ensures LookupFile(Some("somejunkfile.csv")) == None
    ensures LookupFile(None) == None
  {
    assert "somejunkfile.csv"[..5][0] != UserPrefix[0];
    ResolvesIffUserKey("somejunkfile.csv");
  }

  lemma LookupUnknownExample(k: string)
    requires k == "user/unit_test.csv"
    ensures Equals(LookupFile(Some(k)).value,
                   FileType("unit_test.csv", "user/unit_test.csv", "mstr/unit_test.csv", "Id", ",", "\""))
  {
    EmailPattern(EmailCsv, k);
    IdentifierPattern(IdentifierCsv, k);
    assert k[..18][6] != "user/userEmailFile"[6];
    CreateNewFileTypeExample(k);
  }

  /** The cases the tests of `create_new_file_type` exercise. */
  lemma CreateNewFileTypeRejects()
    ensures CreateNewFileType(Some("junk.csv")) == None
    ensures CreateNewFileType(Some("")) == None
    ensures CreateNewFileType(None) == None
  {
    assert "junk.csv"[..5][0] != UserPrefix[0];
  }

  lemma CreateNewFileTypeExample(k: string)
    requires k == "user/unit_test.csv"
    ensures CreateNewFileType(Some(k))
         == Some(FileType("unit_test.csv", k, "mstr/unit_test.csv", "Id", ",", "\""))
  {
    var rest := k[|UserPrefix|..];
    assert rest == "unit_test.csv";
    assert k == UserPrefix + rest;
    MissingCharNoOccurrence(rest, UserPrefix, '/');
    PlainKeySynthesis(rest);
    assert "mstr/unit_test.csv" == MasterPrefix + rest;
  }
}

=== FILE: s3_functions.dfy ===
/** File-type resolution, table loading and the merge of a staging file into
    its master file. */
module S3Functions {
  import opened Wrappers
  import opened Text
  import opened Glob
  import opened FileTypes
  import opened FileProcessingData
  import opened Tables
  import opened Joins
  import opened ObjectStore

  /** Key prefix of incoming staging files. */
  const UserPrefix: string := "user/"
  /** Key prefix of master files. */
  const MasterPrefix: string := "mstr/"

  const EmailCsv: FileType :=
    FileType("Email CSV", "user/userEmailFile*.csv", "mstr/userEmailFile.csv", "Email", ",", "\"")
  const IdentifierCsv: FileType :=
    FileType("Identifier CSV", "user/randomDataFile*.csv", "mstr/randomDataFile.csv", "Id", ",", "\"")

  /** The known file types, in the order they are tried. */
  const KnownFileTypes: seq<FileType> := [EmailCsv, IdentifierCsv]

  /** Index of the first entry whose pattern matches the whole key. */
  function FirstMatch(registry: seq<FileType>, key: string): (r: Option<nat>)
    ensures r.Some? ==> r.value < |registry| && Match(registry[r.value].incomingFilePattern, key)
    ensures r.Some? ==> forall j :: 0 <= j < r.value ==> !Match(registry[j].incomingFilePattern, key)
    ensures r.None? ==> forall j :: 0 <= j < |registry| ==> !Match(registry[j].incomingFilePattern, key)
  {
    if |registry| == 0 then None
    else if Match(registry[0].incomingFilePattern, key) then Some(0)
    else
      match FirstMatch(registry[1..], key)
      case None => None
      case Some(i) => Some(i + 1)
  }

  /** `create_new_file_type`: a key that is a string starting with `user/`
      yields a file type keyed on `Id`, comma-delimited and double-quoted,
      whose name drops every `user/` and whose master key turns every `user/`
      into `mstr/`; anything else yields nothing. */
  function CreateNewFileType(key: Option<string>): (r: Option<FileType>)
    ensures r.Some? <==> key.Some? && StartsWith(key.value, UserPrefix)
    ensures r.Some? ==> r.value.incomingFilePattern == key.value
    ensures r.Some? ==> r.value.primaryKey == "Id" && r.value.fieldDelimiter == "," && r.value.textQualifier == "\""
    ensures r.Some? ==> StartsWith(r.value.masterFileS3Key, MasterPrefix)
    ensures r.Some? ==> |r.value.masterFileS3Key| == |key.value|
    ensures r.Some? ==> r.value.fileProcessName == ReplaceAll(key.value, UserPrefix, "")
    ensures r.Some? ==> r.value.masterFileS3Key == ReplaceAll(key.value, UserPrefix, MasterPrefix)
  {
    if key.None? || !StartsWith(key.value, UserPrefix) then None
    else
      var k := key.value;
      assert k == UserPrefix + k[|UserPrefix|..];
      ReplaceAllLeading(UserPrefix, k[|UserPrefix|..], MasterPrefix);
      Some(FileType(
        ReplaceAll(k, UserPrefix, ""),
        k,
        ReplaceAll(k, UserPrefix, MasterPrefix),
        "Id", ",", "\""))
  }

  /** `lookup_file` over a given registry: the first entry whose pattern
      matches the whole key, otherwise whatever `create_new_file_type` makes of
      the key. A key that is not a string resolves to nothing. */
  function LookupIn(registry: seq<FileType>, key: Option<string>): (r: Option<FileType>)
    ensures key.None? ==> r.None?
    ensures key.Some? ==>
      forall i :: (&& 0 <= i < |registry|
                   && Match(registry[i].incomingFilePattern, key.value)
                   && forall j :: 0 <= j < i ==> !Match(registry[j].incomingFilePattern, key.value))
                  ==> r == Some(registry[i])
    ensures key.Some? && (forall i :: 0 <= i < |registry| ==> !Match(registry[i].incomingFilePattern, key.value))
      ==> r == CreateNewFileType(key)
  {
    if key.None? then CreateNewFileType(key)
    else
      match FirstMatch(registry, key.value)
      case Some(i) => Some(registry[i])
      case None => CreateNewFileType(key)
  }

  /** `lookup_file`. */
  function LookupFile(key: Option<string>): (r: Option<FileType>)
    ensures key.None? ==> r.None?
    ensures key.Some? && Match(EmailCsv.incomingFilePattern, key.value) ==> r == Some(EmailCsv)
    ensures (key.Some? && !Match(EmailCsv.incomingFilePattern, key.value)
             && Match(IdentifierCsv.incomingFilePattern, key.value)) ==> r == Some(IdentifierCsv)
    ensures (key.Some? && !Match(EmailCsv.incomingFilePattern, key.value)
             && !Match(IdentifierCsv.incomingFilePattern, key.value)) ==> r == CreateNewFileType(key)
  {
    assert KnownFileTypes[0] == EmailCsv && KnownFileTypes[1] == IdentifierCsv;
    LookupIn(KnownFileTypes, key)
  }

  /** What `get_dataframe` gives back. */
  datatype Load =
    | NotAFileType      // `None`: the file type argument was not a FileType
    | Loaded(table: Table)
    | Raises            // an exception the loader does not catch

  /** `get_dataframe`: the object's table when it exists and parses; the
      empty table whose only column is the primary key when it is absent or
      its read fails with an error the loader handles. */
  function GetDataframe(s3: Option<Store>, obj: Option<ObjectRef>, fileType: Option<FileType>): (r: Load)
    ensures r.NotAFileType? <==> fileType.None?
    ensures fileType.Some? && !FileExists(s3, obj) ==> r == Loaded(EmptyTable(fileType.value.primaryKey))
    ensures r.Raises? ==> FileExists(s3, obj)
    ensures fileType.Some? && FileExists(s3, obj) && obj.value.key in s3.value.buckets[obj.value.bucket].objects ==>
      var contents := s3.value.buckets[obj.value.bucket].objects[obj.value.key].contents;
      && (contents.Parsed? ==> r == Loaded(contents.table))
      && (contents == Unloadable(HandledByLoader) ==> r == Loaded(EmptyTable(fileType.value.primaryKey)))
      && (contents == Unloadable(Unhandled) ==> r == Raises)
    ensures fileType.Some? && FileExists(s3, obj) && obj.value.key !in s3.value.buckets[obj.value.bucket].objects ==>
      r == Raises
    ensures r.Loaded? && r.table != EmptyTable(fileType.value.primaryKey) ==>
      && FileExists(s3, obj)
      && obj.value.key in s3.value.buckets[obj.value.bucket].objects
      && s3.value.buckets[obj.value.bucket].objects[obj.value.key].contents == Parsed(r.table)
  {
    if fileType.None? then NotAFileType
    else
      var empty := Loaded(EmptyTable(fileType.value.primaryKey));
      if !FileExists(s3, obj) then empty
      else
        var objects := s3.value.buckets[obj.value.bucket].objects;
        if obj.value.key !in objects then Raises
        else
          match objects[obj.value.key].contents
          case Parsed(t) => Loaded(t)
          case Unloadable(HandledByLoader) => empty
          case Unloadable(Unhandled) => Raises
  }

  const StatusUserFileNotFound: string := "User file not found"
  const StatusUserObjectError: string := "User object error"
  const StatusError: string := "Error"
  const StatusKeyError: string := "Key error"
  const StatusSuccess: string := "Success"

  /** The status `merge_to_mstr` returns, the statistics record it logs, and
      the store afterwards. */
  datatype MergeOutcome = MergeOutcome(status: string, report: Option<Report>, store: Store)

  /** Byte size of a stored object, if it is there to ask. */
  function ObjectSize(store: Store, obj: ObjectRef): (r: Option<nat>)
    ensures r.Some? <==> obj.bucket in store.buckets && obj.key in store.buckets[obj.bucket].objects
    ensures r.Some? ==> r.value == store.buckets[obj.bucket].objects[obj.key].size
  {
    var stored := StoredAt(store, obj);
    if stored.Some? then Some(stored.value.size) else None
  }

  /** The master object a merge of `userObject` reads and writes: the file
      type's master key in the staging object's bucket. */
  function MasterOf(userObject: ObjectRef, fileType: FileType): ObjectRef {
    ObjectRef(userObject.bucket, fileType.masterFileS3Key)
  }

  /** The statistics of a merge of `stg` into `mstr`, before the new master
      size is known. */
  function Statistics(userKey: string, fileType: FileType, stg: Table, mstr: Table,
                      stgSize: nat, mstrPrevSize: nat): (r: Report)
    ensures r.stgDuplicates + r.stgDistinctRowCount == r.stgRowCount
    ensures r.stgDistinctRowCount == |Keys(stg.rows)|
    ensures r.newRecordCount == |RemoveKeys(DedupLast(stg.rows), Keys(mstr.rows))|
    ensures r.mstrNewFileSize == 0
  {
    var distinct := DedupLast(stg.rows);
    var update := InnerJoinSize(mstr.rows, distinct);
    RightMinusInner(mstr.rows, distinct);
    DedupLastCount(stg.rows);
    Report(
      stgFileName := ReplaceAll(userKey, UserPrefix, ""),
      mstrFileName := ReplaceAll(fileType.masterFileS3Key, MasterPrefix, ""),
      stgRowCount := |stg.rows|,
      stgColumnCount := |stg.columns|,
      stgFileSize := stgSize,
      stgDuplicates := |stg.rows| - |distinct|,
      stgDistinctRowCount := |distinct|,
      mstrPrevRowCount := |mstr.rows|,
      mstrPrevColumnCount := |mstr.columns|,
      mstrPrevFileSize := mstrPrevSize,
      mstrNewRowCount := |Upsert(mstr.rows, stg.rows)|,
      mstrNewColumnCount := |ColumnUnion(mstr.columns, stg.columns)|,
      updateCount := update,
      newRecordCount := RightJoinSize(mstr.rows, distinct) - update)
  }

  /** `merge_to_mstr`. `writtenSize` is the byte size the store reports for
      the newly written master object. */
  function MergeToMaster(store: Store, userObject: ObjectRef, fileType: FileType, writtenSize: nat): (o: MergeOutcome)
    ensures !FileExists(Some(store), Some(userObject))
        <==> o.status == StatusUserFileNotFound
    ensures FileExists(Some(store), Some(userObject)) && !StartsWith(userObject.key, UserPrefix)
        <==> o.status == StatusUserObjectError
    ensures o.status in {StatusUserFileNotFound, StatusUserObjectError} ==> o.store == store
    ensures o.status in {StatusUserFileNotFound, StatusUserObjectError, StatusError, StatusKeyError, StatusSuccess}
    ensures o.report.Some? <==> o.status == StatusSuccess
    ensures FileExists(Some(store), Some(userObject)) && StartsWith(userObject.key, UserPrefix) ==>
      var stgLoad := GetDataframe(Some(store), Some(userObject), Some(fileType));
      var mstrLoad := GetDataframe(Some(store), Some(MasterOf(userObject, fileType)), Some(fileType));
      && (stgLoad.Raises? || mstrLoad.Raises? ==> o.status == StatusError)
      && (stgLoad.Loaded? && mstrLoad.Loaded?
          && (fileType.primaryKey !in stgLoad.table.columns || fileType.primaryKey !in mstrLoad.table.columns)
          ==> o.status == StatusKeyError)
    ensures o.status == StatusSuccess ==>
      var master := MasterOf(userObject, fileType);
      && ObjectSize(o.store, master) == Some(writtenSize)
      && o.report.value.mstrNewFileSize == writtenSize
  {
    var mstrObject := MasterOf(userObject, fileType);
    if !FileExists(Some(store), Some(userObject)) then
      MergeOutcome(StatusUserFileNotFound, None, store)
    else if !StartsWith(userObject.key, UserPrefix) then
      MergeOutcome(StatusUserObjectError, None, store)
    else
      var stgLoad := GetDataframe(Some(store), Some(userObject), Some(fileType));
      var mstrLoad := GetDataframe(Some(store), Some(mstrObject), Some(fileType));
      if !stgLoad.Loaded? || !mstrLoad.Loaded? then
        MergeOutcome(StatusError, None, store)
      else
        var stg := stgLoad.table;
        var mstr := mstrLoad.table;
        if fileType.primaryKey !in stg.columns || fileType.primaryKey !in mstr.columns then
          MergeOutcome(StatusKeyError, None, store)
        else
          var prevSize := if FileExists(Some(store), Some(mstrObject)) then ObjectSize(store, mstrObject) else Some(0);
          var stgSize := ObjectSize(store, userObject);
          if prevSize.None? || stgSize.None? then
            MergeOutcome(StatusError, None, store)
          else
            var report := Statistics(userObject.key, fileType, stg, mstr, stgSize.value, prevSize.value);
            var newMaster := Table(ColumnUnion(mstr.columns, stg.columns), Upsert(mstr.rows, stg.rows));
            var written := Put(store, mstrObject, StoredObject(Parsed(newMaster), writtenSize));
            MergeOutcome(StatusSuccess, Some(report.(mstrNewFileSize := writtenSize)), written)
  }
}

=== FILE: tables.dfy ===
/** Tables as the merge engine sees them: rows in file order, each with the
    value of its primary-key column and the rest of its cells kept opaque, and
    pandas' `drop_duplicates(subset=[key], keep='last')` on them. */
module Tables {

  /** One row: its primary-key value and its other cells. */
  datatype Row = Row(key: string, payload: seq<string>)

  /** A parsed table: column names and rows in file order. */
  datatype Table = Table(columns: seq<string>, rows: seq<Row>)

  /** The table a missing or unreadable file loads as: no rows, and the
      primary key as its only column. */
  function EmptyTable(primaryKey: string): (t: Table)
    ensures t.columns == [primaryKey] && |t.rows| == 0
  {
    Table([primaryKey], [])
  }

  /** The primary-key values present in `rows`. */
  function Keys(rows: seq<Row>): set<string> {
    set i | 0 <= i < |rows| :: rows[i].key
  }

  lemma KeysEmpty(rows: seq<Row>)
    ensures Keys(rows) == {} <==> |rows| == 0
  {
    if |rows| > 0 {
      assert rows[0].key in Keys(rows);
    }
  }

  /** No primary-key value occurs twice. */
  predicate UniqueKeys(rows: seq<Row>) {
    forall i, j :: 0 <= i < j < |rows| ==> rows[i].key != rows[j].key
  }

  lemma KeysCons(rows: seq<Row>)
    requires |rows| > 0
    ensures Keys(rows) == {rows[0].key} + Keys(rows[1..])
  {
    forall k | k in Keys(rows) ensures k in {rows[0].key} + Keys(rows[1..]) {
      var i :| 0 <= i < |rows| && rows[i].key == k;
      if i > 0 {
        assert rows[1..][i - 1].key == k;
      }
    }
    forall k | k in Keys(rows[1..]) ensures k in Keys(rows) {
      var i :| 0 <= i < |rows[1..]| && rows[1..][i].key == k;
      assert rows[i + 1].key == k;
    }
  }

  lemma KeysAppend(a: seq<Row>, b: seq<Row>)
    ensures Keys(a + b) == Keys(a) + Keys(b)
  {
    forall k | k in Keys(a + b) ensures k in Keys(a) + Keys(b) {
      var i :| 0 <= i < |a + b| && (a + b)[i].key == k;
      if i >= |a| {
        assert b[i - |a|].key == k;
      } else {
        assert a[i].key == k;
      }
    }
    forall k | k in Keys(b) ensures k in Keys(a + b) {
      var i :| 0 <= i < |b| && b[i].key == k;
      assert (a + b)[|a| + i].key == k;
    }
    forall k | k in Keys(a) ensures k in Keys(a + b) {
      var i :| 0 <= i < |a| && a[i].key == k;
      assert (a + b)[i].key == k;
    }
  }

  /** Without its first row, a unique-keyed sequence loses exactly the first
      key. */
  lemma UniqueTail(rows: seq<Row>)
    requires UniqueKeys(rows) && |rows| > 0
    ensures UniqueKeys(rows[1..])
    ensures rows[0].key !in Keys(rows[1..])
    ensures Keys(rows[1..]) == Keys(rows) - {rows[0].key}
  {
    KeysCons(rows);
    forall i | 0 <= i < |rows[1..]| ensures rows[1..][i].key != rows[0].key {
      assert rows[1..][i] == rows[i + 1];
    }
  }

  /** With unique keys, there are as many keys as rows. */
  lemma {:induction false} UniqueKeysCount(rows: seq<Row>)
    requires UniqueKeys(rows)
    ensures |Keys(rows)| == |rows|
  {
    if |rows| > 0 {
      KeysCons(rows);
      UniqueKeysCount(rows[1..]);
      UniqueTail(rows);
    }
  }

  /** Position of the last row carrying `k`. */
  function LastIndex(rows: seq<Row>, k: string): (i: nat)
    requires k in Keys(rows)
    ensures i < |rows| && rows[i].key == k
    ensures forall j :: i < j < |rows| ==> rows[j].key != k
  {
    var n := |rows| - 1;
    if rows[n].key == k then n
    else
      assert k in Keys(rows[..n]) by {
        var i :| 0 <= i < |rows| && rows[i].key == k;
        assert rows[..n][i].key == k;
      }
      LastIndex(rows[..n], k)
  }

  /** The last row carrying `k` is the only index with that key and no later
      one; this pins `LastIndex` down. */
  lemma LastIndexIs(rows: seq<Row>, k: string, i: nat)
    requires i < |rows| && rows[i].key == k
    requires forall j :: i < j < |rows| ==> rows[j].key != k
    ensures k in Keys(rows) && LastIndex(rows, k) == i
  {
  }

  /** Last positions in `a + b`: those of `b` win, shifted past `a`. */
  lemma LastIndexAppend(a: seq<Row>, b: seq<Row>, k: string)
    requires k in Keys(a) + Keys(b)
    ensures k in Keys(a + b)
    ensures k in Keys(b) ==> LastIndex(a + b, k) == |a| + LastIndex(b, k)
    ensures k !in Keys(b) ==> LastIndex(a + b, k) == LastIndex(a, k)
  {
    KeysAppend(a, b);
    if k in Keys(b) {
      LastIndexIs(a + b, k, |a| + LastIndex(b, k));
    } else {
      var i := LastIndex(a, k);
      forall j | i < j < |a + b| ensures (a + b)[j].key != k {
        if j >= |a| {
          assert b[j - |a|].key == (a + b)[j].key;
        }
      }
      LastIndexIs(a + b, k, i);
    }
  }

  /** `drop_duplicates(keep='last')`: a row survives when no later row has its
      key; survivors keep their relative order. */
  function DedupLast(rows: seq<Row>): (r: seq<Row>)
    ensures |r| <= |rows|
    ensures Keys(r) == Keys(rows)
    ensures UniqueKeys(r)
  {
    if |rows| == 0 then []
    else
      KeysCons(rows);
      var rest := DedupLast(rows[1..]);
      if rows[0].key in Keys(rows[1..]) then rest
      else
        KeysCons([rows[0]] + rest);
        assert ([rows[0]] + rest)[1..] == rest;
        [rows[0]] + rest
  }

  /** Every surviving row is the last row of `rows` with its key. */
  predicate KeepsLastRows(rows: seq<Row>, s: seq<Row>) {
    forall m :: 0 <= m < |s| ==> s[m].key in Keys(rows) && s[m] == rows[LastIndex(rows, s[m].key)]
  }

  /** Survivors appear in the order of their last occurrences. */
  predicate InLastOccurrenceOrder(rows: seq<Row>, s: seq<Row>) {
    forall m, n :: 0 <= m < n < |s| && s[m].key in Keys(rows) && s[n].key in Keys(rows)
      ==> LastIndex(rows, s[m].key) < LastIndex(rows, s[n].key)
  }

  /** The keep-last result, described without computing it: every key once,
      carried by its last row, in the order of last occurrences. */
  predicate IsKeepLast(rows: seq<Row>, s: seq<Row>) {
    && Keys(s) == Keys(rows)
    && UniqueKeys(s)
    && KeepsLastRows(rows, s)
    && InLastOccurrenceOrder(rows, s)
  }

  /** Dropping the first row shifts every last position down by one. */
  lemma LastIndexTail(rows: seq<Row>, k: string)
    requires |rows| > 0 && k in Keys(rows[1..])
    ensures k in Keys(rows) && LastIndex(rows, k) == 1 + LastIndex(rows[1..], k)
  {
    assert rows == [rows[0]] + rows[1..];
    LastIndexAppend([rows[0]], rows[1..], k);
  }

  lemma {:induction false} DedupLastKeepsLastRows(rows: seq<Row>)
    ensures KeepsLastRows(rows, DedupLast(rows))
  {
    if |rows| > 0 {
      var t := rows[1..];
      var r := DedupLast(rows);
      var rest := DedupLast(t);
      DedupLastKeepsLastRows(t);
      KeysCons(rows);
      forall m | 0 <= m < |rest|
        ensures rest[m].key in Keys(rows) && rest[m] == rows[LastIndex(rows, rest[m].key)]
      {
        LastIndexTail(rows, rest[m].key);
        assert rows[1 + LastIndex(t, rest[m].key)] == t[LastIndex(t, rest[m].key)];
      }
      if rows[0].key !in Keys(t) {
        assert r == [rows[0]] + rest;
        forall j | 0 < j < |rows| ensures rows[j].key != rows[0].key {
          assert t[j - 1] == rows[j];
        }
        LastIndexIs(rows, rows[0].key, 0);
        forall m | 0 < m < |r| ensures r[m] == rest[m - 1] {
        }
      }
    }
  }

  /** Order by last occurrence in the tail carries over to the whole
      sequence, for rows whose keys the tail holds. */
  lemma TailOrder(rows: seq<Row>, s: seq<Row>)
    requires |rows| > 0 && Keys(s) <= Keys(rows[1..])
    requires InLastOccurrenceOrder(rows[1..], s)
    ensures InLastOccurrenceOrder(rows, s)
  {
    forall m, n | 0 <= m < n < |s| && s[m].key in Keys(rows) && s[n].key in Keys(rows)
      ensures LastIndex(rows, s[m].key) < LastIndex(rows, s[n].key)
    {
      assert s[m].key in Keys(s) && s[n].key in Keys(s);
      LastIndexTail(rows, s[m].key);
      LastIndexTail(rows, s[n].key);
    }
  }

  /** A first row whose key never recurs has last position 0, ahead of
      every key of the tail. */
  lemma ConsOrder(rows: seq<Row>, s: seq<Row>)
    requires |rows| > 0 && rows[0].key !in Keys(rows[1..]) && Keys(s) <= Keys(rows[1..])
    requires InLastOccurrenceOrder(rows, s)
    ensures InLastOccurrenceOrder(rows, [rows[0]] + s)
  {
    var r := [rows[0]] + s;
    forall j | 0 < j < |rows| ensures rows[j].key != rows[0].key {
      assert rows[1..][j - 1] == rows[j];
    }
    LastIndexIs(rows, rows[0].key, 0);
    forall m, n | 0 <= m < n < |r| && r[m].key in Keys(rows) && r[n].key in Keys(rows)
      ensures LastIndex(rows, r[m].key) < LastIndex(rows, r[n].key)
    {
      assert r[n] == s[n - 1] && s[n - 1].key in Keys(s);
      LastIndexTail(rows, s[n - 1].key);
      if m > 0 {
        assert r[m] == s[m - 1];
      }
    }
  }

  lemma {:induction false} DedupLastOrder(rows: seq<Row>)
    ensures InLastOccurrenceOrder(rows, DedupLast(rows))
  {
    if |rows| > 0 {
      var t := rows[1..];
      var rest := DedupLast(t);
      DedupLastOrder(t);
      KeysCons(rows);
      TailOrder(rows, rest);
      if rows[0].key !in Keys(t) {
        ConsOrder(rows, rest);
      }
    }
  }

  lemma DedupLastIsKeepLast(rows: seq<Row>)
    ensures IsKeepLast(rows, DedupLast(rows))
  {
    DedupLastKeepsLastRows(rows);
    DedupLastOrder(rows);
  }
  /** The scan pandas performs for `keep='last'`: walk the rows from the
      back, remembering the keys already seen, and keep a row only the first
      time its key is met. */
  method DropDuplicatesKeepLast(rows: seq<Row>) returns (kept: seq<Row>)
    ensures kept == DedupLast(rows)
    ensures IsKeepLast(rows, kept)
  {
    kept := [];
    var seen: set<string> := {};
    var i := |rows|;
    while i > 0
      invariant 0 <= i <= |rows|
      invariant kept == DedupLast(rows[i..])
      invariant seen == Keys(rows[i..])
      decreases i
    {
      i := i - 1;
      assert rows[i..][1..] == rows[i + 1..];
      KeysCons(rows[i..]);
      if rows[i].key !in seen {
        kept := [rows[i]] + kept;
      }
      seen := seen + {rows[i].key};
    }
    assert rows[0..] == rows;
    DedupLastIsKeepLast(rows);
  }


  /** The first keys of two such sequences agree: both are the key whose last
      occurrence comes first. */
  lemma FirstKeysAgree(rows: seq<Row>, s: seq<Row>, t: seq<Row>)
    requires Keys(s) == Keys(t) && Keys(s) <= Keys(rows) && |s| > 0
    requires InLastOccurrenceOrder(rows, s) && InLastOccurrenceOrder(rows, t)
    ensures |t| > 0 && s[0].key == t[0].key
  {
    assert s[0].key in Keys(t);
    var j :| 0 <= j < |t| && t[j].key == s[0].key;
    assert t[0].key in Keys(s);
    var i :| 0 <= i < |s| && s[i].key == t[0].key;
  }

  /** Two unique-keyed sequences over the same keys, both in increasing order
      of last occurrence in `rows`, list their keys identically. */
  lemma {:induction false} SameOrderSameKeys(rows: seq<Row>, s: seq<Row>, t: seq<Row>)
    requires Keys(s) == Keys(t) && Keys(s) <= Keys(rows)
    requires UniqueKeys(s) && UniqueKeys(t)
    requires InLastOccurrenceOrder(rows, s) && InLastOccurrenceOrder(rows, t)
    ensures |s| == |t|
    ensures forall m :: 0 <= m < |s| ==> s[m].key == t[m].key
  {
    KeysEmpty(s);
    KeysEmpty(t);
    if |s| > 0 {
      FirstKeysAgree(rows, s, t);
      UniqueTail(s);
      UniqueTail(t);
      SameOrderSameKeys(rows, s[1..], t[1..]);
      forall m | 0 < m < |s| ensures s[m].key == t[m].key {
        assert s[1..][m - 1] == s[m] && t[1..][m - 1] == t[m];
      }
    }
  }

  /** `DedupLast` is the one and only keep-last result. */
  lemma DedupLastCharacterized(rows: seq<Row>, s: seq<Row>)
    ensures IsKeepLast(rows, s) <==> s == DedupLast(rows)
  {
    var r := DedupLast(rows);
    DedupLastIsKeepLast(rows);
    if IsKeepLast(rows, s) {
      SameOrderSameKeys(rows, s, r);
      forall m | 0 <= m < |s| ensures s[m] == r[m] {
        assert s[m] == rows[LastIndex(rows, s[m].key)];
        assert r[m] == rows[LastIndex(rows, r[m].key)];
      }
    }
  }

  /** There are exactly as many survivors as distinct keys. */
  lemma DedupLastCount(rows: seq<Row>)
    ensures |DedupLast(rows)| == |Keys(rows)|
  {
    UniqueKeysCount(DedupLast(rows));
  }

  /** Rows whose keys are already unique all survive, in place. */
  lemma {:induction false} DedupLastOfUnique(rows: seq<Row>)
    requires UniqueKeys(rows)
    ensures DedupLast(rows) == rows
  {
    if |rows| > 0 {
      UniqueTail(rows);
      DedupLastOfUnique(rows[1..]);
      assert rows == [rows[0]] + rows[1..];
    }
  }

  /** Deduplicating twice is deduplicating once. */
  lemma DedupLastIdempotent(rows: seq<Row>)
    ensures DedupLast(DedupLast(rows)) == DedupLast(rows)
  {
    DedupLastOfUnique(DedupLast(rows));
  }

  /** Keeps the rows whose key is outside `ks`, in order. */
  function RemoveKeys(rows: seq<Row>, ks: set<string>): (r: seq<Row>)
    ensures Keys(r) == Keys(rows) - ks
    ensures |r| <= |rows|
  {
    if |rows| == 0 then []
    else
      KeysCons(rows);
      var rest := RemoveKeys(rows[1..], ks);
      if rows[0].key in ks then rest
      else
        KeysCons([rows[0]] + rest);
        assert ([rows[0]] + rest)[1..] == rest;
        [rows[0]] + rest
  }

  lemma {:induction false} RemoveKeysUnique(rows: seq<Row>, ks: set<string>)
    requires UniqueKeys(rows)
    ensures UniqueKeys(RemoveKeys(rows, ks))
  {
    if |rows| > 0 {
      RemoveKeysUnique(rows[1..], ks);
      var rest := RemoveKeys(rows[1..], ks);
      if rows[0].key !in ks {
        var r := [rows[0]] + rest;
        forall i, j | 0 <= i < j < |r| ensures r[i].key != r[j].key {
          if i == 0 {
            assert r[j].key in Keys(rest);
            var a :| 0 <= a < |rows[1..]| && rows[1..][a].key == r[j].key;
            assert rows[a + 1].key == r[j].key;
          }
        }
      }
    }
  }

  /** Removing keys that do not occur changes nothing. */
  lemma {:induction false} RemoveAbsentKeys(rows: seq<Row>, ks: set<string>)
    requires Keys(rows) !! ks
    ensures RemoveKeys(rows, ks) == rows
  {
    if |rows| > 0 {
      KeysCons(rows);
      RemoveAbsentKeys(rows[1..], ks);
      assert rows == [rows[0]] + rows[1..];
    }
  }

  /** Deduplicating an append: rows of `a` whose key reappears in `b` are
      superseded, and `b`'s survivors come last. */
  lemma {:induction false} DedupLastAppend(a: seq<Row>, b: seq<Row>)
    ensures DedupLast(a + b) == DedupLast(RemoveKeys(a, Keys(b))) + DedupLast(b)
  {
    if |a| == 0 {
      assert a + b == b;
    } else {
      var ab := a + b;
      assert ab[0] == a[0] && ab[1..] == a[1..] + b;
      DedupLastAppend(a[1..], b);
      KeysAppend(a[1..], b);
      var ra := RemoveKeys(a, Keys(b));
      var ra' := RemoveKeys(a[1..], Keys(b));
      if a[0].key in Keys(b) {
        assert ra == ra';
      } else {
        assert ra == [a[0]] + ra';
        assert ra[1..] == ra';
        if a[0].key in Keys(a[1..]) {
          assert a[0].key in Keys(ra');
        } else {
          assert a[0].key !in Keys(ra');
        }
      }
    }
  }

  /** The upsert at the heart of the merge: master rows followed by the
      deduplicated staging rows, deduplicated again keeping the last. */
  function Upsert(master: seq<Row>, staging: seq<Row>): (r: seq<Row>)
    ensures UniqueKeys(r)
    ensures Keys(r) == Keys(master) + Keys(staging)
  {
    KeysAppend(master, DedupLast(staging));
    DedupLast(master + DedupLast(staging))
  }

  /** The upserted table is the master's rows whose key staging does not
      carry, deduplicated in master order, followed by the deduplicated
      staging rows. */
  lemma UpsertShape(master: seq<Row>, staging: seq<Row>)
    ensures Upsert(master, staging)
         == DedupLast(RemoveKeys(master, Keys(staging))) + DedupLast(staging)
  {
    DedupLastAppend(master, DedupLast(staging));
    DedupLastIdempotent(staging);
  }

  /** Staging wins every key collision: a key staging carries keeps the last
      staging row for it, any other key keeps its last master row. */
  lemma UpsertRows(master: seq<Row>, staging: seq<Row>)
    ensures var r := Upsert(master, staging);
      forall m :: 0 <= m < |r| ==>
        (r[m].key in Keys(staging) ==> r[m] == staging[LastIndex(staging, r[m].key)])
        && (r[m].key !in Keys(staging) ==> r[m].key in Keys(master) && r[m] == master[LastIndex(master, r[m].key)])
  {
    var s := DedupLast(staging);
    var ms := master + s;
    var r := Upsert(master, staging);
    DedupLastIsKeepLast(ms);
    DedupLastIsKeepLast(staging);
    KeysAppend(master, s);
    forall m | 0 <= m < |r|
      ensures r[m].key in Keys(staging) ==> r[m] == staging[LastIndex(staging, r[m].key)]
      ensures r[m].key !in Keys(staging) ==> r[m].key in Keys(master) && r[m] == master[LastIndex(master, r[m].key)]
    {
      var k := r[m].key;
      assert r[m] == ms[LastIndex(ms, k)];
      LastIndexAppend(master, s, k);
      if k in Keys(staging) {
        var i := LastIndex(s, k);
        assert ms[|master| + i] == s[i];
        assert s[i] == staging[LastIndex(staging, s[i].key)];
      } else {
        assert ms[LastIndex(master, k)] == master[LastIndex(master, k)];
      }
    }
  }

  lemma {:induction false} RemoveKeysAppend(a: seq<Row>, b: seq<Row>, ks: set<string>)
    ensures RemoveKeys(a + b, ks) == RemoveKeys(a, ks) + RemoveKeys(b, ks)
  {
    if |a| == 0 {
      assert a + b == b;
    } else {
      assert (a + b)[0] == a[0] && (a + b)[1..] == a[1..] + b;
      RemoveKeysAppend(a[1..], b, ks);
    }
  }

  /** Rows with no key left over vanish entirely. */
  lemma RemoveAllKeys(rows: seq<Row>, ks: set<string>)
    requires Keys(rows) <= ks
    ensures RemoveKeys(rows, ks) == []
  {
  }

  /** Merging the same staging rows a second time changes nothing. */
  lemma UpsertIdempotent(master: seq<Row>, staging: seq<Row>)
    ensures Upsert(Upsert(master, staging), staging) == Upsert(master, staging)
  {
    var s := DedupLast(staging);
    var kept := DedupLast(RemoveKeys(master, Keys(staging)));
    var r := Upsert(master, staging);
    UpsertShape(master, staging);
    UpsertShape(r, staging);
    RemoveKeysAppend(kept, s, Keys(staging));
    RemoveAbsentKeys(kept, Keys(staging));
    RemoveAllKeys(s, Keys(staging));
    assert RemoveKeys(r, Keys(staging)) == kept;
    DedupLastOfUnique(kept);
  }

  /** With no master rows the upsert is the deduplicated staging table. */
  lemma UpsertIntoEmpty(staging: seq<Row>)
    ensures Upsert([], staging) == DedupLast(staging)
  {
    UpsertShape([], staging);
  }

  /** Columns of `pandas.concat([a_frame, b_frame])`: the columns of the first
      frame, then those of the second not already present, in order. */
  function ColumnUnion(a: seq<string>, b: seq<string>): (r: seq<string>)
    ensures forall c :: c in r <==> c in a || c in b
    ensures |a| <= |r| && r[..|a|] == a
    decreases |b|
  {
    if |b| == 0 then a
    else
      var a' := if b[0] in a then a else a + [b[0]];
      var r := ColumnUnion(a', b[1..]);
      assert r[..|a|] == r[..|a'|][..|a|];
      r
  }

  /** Concatenating a frame whose columns are all present already adds no
      column, so a second merge of the same staging columns keeps the
      column list. */
  lemma {:induction false} ColumnUnionAbsorbs(a: seq<string>, b: seq<string>)
    requires forall c :: c in b ==> c in a
    ensures ColumnUnion(a, b) == a
    decreases |b|
  {
    if |b| > 0 {
      assert b[0] in b;
      forall c | c in b[1..] ensures c in a {
        assert c in b;
      }
      ColumnUnionAbsorbs(a, b[1..]);
    }
  }

  lemma ColumnUnionIdempotent(a: seq<string>, b: seq<string>)
    ensures ColumnUnion(ColumnUnion(a, b), b) == ColumnUnion(a, b)
  {
    ColumnUnionAbsorbs(ColumnUnion(a, b), b);
  }
}

=== FILE: text.dfy ===
/** String operations the core relies on: `str.startswith`, `str.replace`
    (every occurrence, left to right, non-overlapping) and the decimal
    rendering `'{}'.format(n)` of a non-negative integer. */
module Text {

  /** `s.startswith(prefix)`. */
  predicate StartsWith(s: string, prefix: string) {
    |prefix| <= |s| && s[..|prefix|] == prefix
  }

  /** `startswith` character by character: the prefix fits and agrees with
      the text at every position it covers. */
  lemma StartsWithIndexwise(s: string, prefix: string)
    ensures StartsWith(s, prefix)
        <==> |prefix| <= |s| && forall i :: 0 <= i < |prefix| ==> s[i] == prefix[i]
  {
  }

  /** A prefix of a prefix is a prefix. */
  lemma StartsWithTransitive(s: string, p: string, q: string)
    requires StartsWith(s, p) && StartsWith(p, q)
    ensures StartsWith(s, q)
  {
    assert s[..|q|] == s[..|p|][..|q|];
  }

  /** `s.endswith(suffix)`. */
  predicate EndsWith(s: string, suffix: string) {
    |suffix| <= |s| && s[|s| - |suffix|..] == suffix
  }
  /** Dropping a front part keeps a suffix that fits in what is left. */
  lemma EndsWithDrop(s: string, i: nat, suffix: string)
    requires i <= |s|
    ensures EndsWith(s[i..], suffix) <==> |suffix| <= |s| - i && EndsWith(s, suffix)
  {
    if |suffix| <= |s| - i {
      assert s[i..][|s| - i - |suffix|..] == s[|s| - |suffix|..];
    }
  }


  /** `pat` occurs in `s` starting at index `i`. */
  predicate OccursAt(s: string, pat: string, i: int) {
    0 <= i && i + |pat| <= |s| && s[i..i + |pat|] == pat
  }

  /** `pat` occurs somewhere inside `s`. */
  predicate Occurs(s: string, pat: string) {
    exists i :: 0 <= i <= |s| && OccursAt(s, pat, i)
  }

  /** A pattern holding a character the text lacks cannot occur in it. */
  lemma MissingCharNoOccurrence(s: string, pat: string, c: char)
    requires c in pat && c !in s
    ensures !Occurs(s, pat)
  {
    var j :| 0 <= j < |pat| && pat[j] == c;
    forall i | 0 <= i <= |s| ensures !OccursAt(s, pat, i) {
      if i + |pat| <= |s| {
        assert s[i..i + |pat|][j] == s[i + j];
      }
    }
  }

  /** `s.replace(pat, rep)`: scan from the left and replace every
      non-overlapping occurrence of `pat` by `rep`. The core only calls it
      with a non-empty `pat`. */
  function ReplaceAll(s: string, pat: string, rep: string): (r: string)
    requires |pat| > 0
    ensures |pat| == |rep| ==> |r| == |s|
    ensures |s| < |pat| ==> r == s
    decreases |s|
  {
    if |s| < |pat| then s
    else if s[..|pat|] == pat then rep + ReplaceAll(s[|pat|..], pat, rep)
    else [s[0]] + ReplaceAll(s[1..], pat, rep)
  }

  /** An occurrence at the very front is replaced, and the scan continues
      after it. */
  lemma ReplaceAllLeading(pat: string, rest: string, rep: string)
    requires |pat| > 0
    ensures ReplaceAll(pat + rest, pat, rep) == rep + ReplaceAll(rest, pat, rep)
  {
    assert (pat + rest)[..|pat|] == pat;
    assert (pat + rest)[|pat|..] == rest;
  }

  /** A character that cannot start an occurrence is copied as it is. */
  lemma ReplaceAllSkip(c: char, s: string, pat: string, rep: string)
    requires |pat| > 0 && c != pat[0]
    ensures ReplaceAll([c] + s, pat, rep) == [c] + ReplaceAll(s, pat, rep)
  {
    assert ([c] + s)[1..] == s;
  }

  /** A stretch without the pattern's first character is copied as it is. */
  lemma {:induction false} ReplaceAllCopied(s: string, t: string, pat: string, rep: string)
    requires |pat| > 0 && pat[0] !in s
    ensures ReplaceAll(s + t, pat, rep) == s + ReplaceAll(t, pat, rep)
    decreases |s|
  {
    if |s| > 0 {
      assert s + t == [s[0]] + (s[1..] + t);
      ReplaceAllSkip(s[0], s[1..] + t, pat, rep);
      ReplaceAllCopied(s[1..], t, pat, rep);
      assert s == [s[0]] + s[1..];
    } else {
      assert s + t == t;
    }
  }

  /** Without an occurrence of `pat`, `replace` returns its input. */
  lemma {:induction false} ReplaceAllAbsent(s: string, pat: string, rep: string)
    requires |pat| > 0
    requires !Occurs(s, pat)
    ensures ReplaceAll(s, pat, rep) == s
    decreases |s|
  {
    if |s| < |pat| {
    } else {
      assert s[0..|pat|] == s[..|pat|];
      assert !OccursAt(s, pat, 0);
      if Occurs(s[1..], pat) {
        var i :| 0 <= i <= |s[1..]| && OccursAt(s[1..], pat, i);
        assert s[i + 1..i + 1 + |pat|] == s[1..][i..i + |pat|];
        assert OccursAt(s, pat, i + 1);
        assert false;
      }
      ReplaceAllAbsent(s[1..], pat, rep);
    }
  }

  /** Occurrences in a text without its first character are the text's
      own occurrences, one place further left. */
  lemma OccursAtShift(s: string, pat: string, i: nat)
    requires |s| > 0
    ensures OccursAt(s[1..], pat, i) <==> OccursAt(s, pat, i + 1)
  {
    if i + 1 + |pat| <= |s| {
      assert s[1..][i..i + |pat|] == s[i + 1..i + 1 + |pat|];
    }
  }

  /** Where no occurrence starts, the first character is copied. */
  lemma ReplaceAllNoLeading(s: string, pat: string, rep: string)
    requires |pat| > 0 && |s| >= |pat| && !OccursAt(s, pat, 0)
    ensures ReplaceAll(s, pat, rep) == [s[0]] + ReplaceAll(s[1..], pat, rep)
  {
    assert s[0..|pat|] == s[..|pat|];
  }

  /** A stretch where no occurrence starts keeps that property without its
      first character. */
  lemma NoOccurrenceInTail(a: string, pat: string, b: string)
    requires |a| > 0
    requires forall i :: 0 <= i < |a| ==> !OccursAt(a + pat + b, pat, i)
    ensures (a + pat + b)[1..] == a[1..] + pat + b
    ensures forall i :: 0 <= i < |a[1..]| ==> !OccursAt(a[1..] + pat + b, pat, i)
  {
    var s := a + pat + b;
    assert s[1..] == a[1..] + pat + b;
    forall i | 0 <= i < |a[1..]| ensures !OccursAt(a[1..] + pat + b, pat, i) {
      OccursAtShift(s, pat, i);
    }
  }

  /** An occurrence preceded by a stretch where no occurrence starts: the
      stretch is copied, the occurrence replaced, and the scan resumes after
      it. With ReplaceAllAbsent this pins down every result of `replace`. */
  lemma {:induction false} ReplaceAllAt(a: string, b: string, pat: string, rep: string)
    requires |pat| > 0
    requires forall i :: 0 <= i < |a| ==> !OccursAt(a + pat + b, pat, i)
    ensures ReplaceAll(a + pat + b, pat, rep) == a + rep + ReplaceAll(b, pat, rep)
    decreases |a|
  {
    if |a| == 0 {
      assert a + pat + b == pat + b;
      ReplaceAllLeading(pat, b, rep);
    } else {
      var s, a' := a + pat + b, a[1..];
      var tail := ReplaceAll(b, pat, rep);
      NoOccurrenceInTail(a, pat, b);
      assert !OccursAt(s, pat, 0);
      ReplaceAllNoLeading(s, pat, rep);
      ReplaceAllAt(a', b, pat, rep);
      assert ReplaceAll(s, pat, rep) == [a[0]] + (a' + rep + tail);
      assert [a[0]] + (a' + rep + tail) == ([a[0]] + a') + rep + tail;
      assert [a[0]] + a' == a;
    }
  }

  /** `sep.join(parts)`. */
  function Join(parts: seq<string>, sep: string): string
    decreases |parts|
  {
    if |parts| == 0 then ""
    else if |parts| == 1 then parts[0]
    else parts[0] + sep + Join(parts[1..], sep)
  }

  /** Three pieces joined. */
  lemma JoinThree(x: string, y: string, z: string, sep: string)
    ensures Join([x, y, z], sep) == x + sep + y + sep + z
  {
    assert [x, y, z][1..] == [y, z] && [y, z][1..] == [z];
    assert Join([z], sep) == z;
    assert Join([y, z], sep) == y + sep + z;
  }

  /** `s.split(pat)`: the pieces between the occurrences a left-to-right
      scan finds. */
  function Split(s: string, pat: string): (parts: seq<string>)
    requires |pat| > 0
    ensures |parts| >= 1
    decreases |s|
  {
    if |s| < |pat| then [s]
    else if s[..|pat|] == pat then [""] + Split(s[|pat|..], pat)
    else
      var t := Split(s[1..], pat);
      [[s[0]] + t[0]] + t[1..]
  }

  /** Gluing one more character onto the first piece glues it onto the
      joined text. */
  lemma JoinConsFirst(c: char, t: seq<string>, sep: string)
    requires |t| >= 1
    ensures Join([[c] + t[0]] + t[1..], sep) == [c] + Join(t, sep)
  {
    var parts := [[c] + t[0]] + t[1..];
    if |t| >= 2 {
      assert parts[1..] == t[1..];
    }
  }

  /** Splitting and joining back with the same pattern gives the text. */
  lemma {:induction false} SplitJoin(s: string, pat: string)
    requires |pat| > 0
    ensures Join(Split(s, pat), pat) == s
    decreases |s|
  {
    if |s| < |pat| {
    } else if s[..|pat|] == pat {
      var t := Split(s[|pat|..], pat);
      SplitJoin(s[|pat|..], pat);
      assert ([""] + t)[1..] == t;
      assert s == s[..|pat|] + s[|pat|..];
    } else {
      var t := Split(s[1..], pat);
      SplitJoin(s[1..], pat);
      JoinConsFirst(s[0], t, pat);
      assert s == [s[0]] + s[1..];
    }
  }

  /** The joined text starts with the first piece. */
  lemma JoinStartsWithFirst(parts: seq<string>, sep: string)
    requires |parts| >= 1
    ensures StartsWith(Join(parts, sep), parts[0])
  {
    if |parts| >= 2 {
      var j := Join(parts, sep);
      assert j == parts[0] + (sep + Join(parts[1..], sep));
      assert j[..|parts[0]|] == parts[0];
    }
  }

  /** No piece of a split holds the pattern. */
  lemma {:induction false} SplitPiecesFree(s: string, pat: string)
    requires |pat| > 0
    ensures forall i :: 0 <= i < |Split(s, pat)| ==> !Occurs(Split(s, pat)[i], pat)
    decreases |s|
  {
    var parts := Split(s, pat);
    if |s| < |pat| {
      forall j | 0 <= j <= |s| ensures !OccursAt(s, pat, j) { }
    } else if s[..|pat|] == pat {
      var t := Split(s[|pat|..], pat);
      SplitPiecesFree(s[|pat|..], pat);
      assert parts == [""] + t;
      forall i | 0 <= i < |parts| ensures !Occurs(parts[i], pat) {
        if i == 0 {
          assert forall j :: 0 <= j <= 0 ==> !OccursAt("", pat, j);
        } else {
          assert parts[i] == t[i - 1];
        }
      }
    } else {
      var t := Split(s[1..], pat);
      SplitPiecesFree(s[1..], pat);
      var first := [s[0]] + t[0];
      assert parts == [first] + t[1..];
      GluedPieceFree(s, pat, t);
      forall i | 0 <= i < |parts| ensures !Occurs(parts[i], pat) {
        if i > 0 {
          assert parts[i] == t[i];
        }
      }
    }
  }

  /** When the text does not start with the pattern, gluing its first
      character onto the first piece of the rest's split, which is free of
      the pattern, gives a piece still free of it. */
  lemma GluedPieceFree(s: string, pat: string, t: seq<string>)
    requires 0 < |pat| <= |s| && s[..|pat|] != pat
    requires t == Split(s[1..], pat) && !Occurs(t[0], pat)
    ensures !Occurs([s[0]] + t[0], pat)
  {
    var first := [s[0]] + t[0];
    forall j | 0 <= j <= |first| ensures !OccursAt(first, pat, j) {
      if j == 0 {
        GluedHeadNotPattern(s, pat, t);
      } else {
        GluedInnerNotPattern(s[0], t[0], pat, j);
      }
    }
  }

  /** The glued piece is a prefix of the text, so it starts with the
      pattern only if the text does. */
  lemma GluedHeadNotPattern(s: string, pat: string, t: seq<string>)
    requires 0 < |pat| <= |s| && s[..|pat|] != pat
    requires t == Split(s[1..], pat)
    ensures !OccursAt([s[0]] + t[0], pat, 0)
  {
    var first := [s[0]] + t[0];
    if |pat| <= |first| {
      SplitJoin(s[1..], pat);
      JoinStartsWithFirst(t, pat);
      assert s == [s[0]] + Join(t, pat);
      assert s[..|first|] == first;
      assert first[..|pat|] == s[..|pat|];
    }
  }

  /** An occurrence past the glued character would be one in the piece. */
  lemma GluedInnerNotPattern(c: char, u: string, pat: string, j: nat)
    requires !Occurs(u, pat) && 0 < j
    ensures !OccursAt([c] + u, pat, j)
  {
    var first := [c] + u;
    if j + |pat| <= |first| {
      assert first[j..j + |pat|] == u[j - 1..j - 1 + |pat|];
      assert !OccursAt(u, pat, j - 1);
    }
  }

  /** A decimal digit character for `d`. */
  function DigitChar(d: nat): (c: char)
    requires d < 10
    ensures '0' <= c <= '9'
  {
    (('0' as int) + d) as char
  }

  predicate IsDigits(s: string) {
    forall i :: 0 <= i < |s| ==> '0' <= s[i] <= '9'
  }

  /** `'{}'.format(n)` for a non-negative integer: shortest decimal form. */
  function NatToString(n: nat): (s: string)
    ensures |s| >= 1 && IsDigits(s)
    ensures |s| > 1 ==> s[0] != '0'
  {
    if n < 10 then [DigitChar(n)] else NatToString(n / 10) + [DigitChar(n % 10)]
  }

  /** Value of a string of decimal digits. */
  function ParseDigits(s: string): nat
    requires IsDigits(s)
  {
    if |s| == 0 then 0
    else ParseDigits(s[..|s| - 1]) * 10 + (s[|s| - 1] as int - '0' as int)
  }

  /** The decimal rendering loses nothing: reading it back gives `n`. */
  lemma {:induction false} NatToStringRoundTrip(n: nat)
    ensures ParseDigits(NatToString(n)) == n
  {
    if n >= 10 {
      var s := NatToString(n);
      NatToStringRoundTrip(n / 10);
      assert s[..|s| - 1] == NatToString(n / 10);
    }
  }

  /** Distinct numbers render differently. */
  lemma NatToStringInjective(m: nat, n: nat)
    requires NatToString(m) == NatToString(n)
    ensures m == n
  {
    NatToStringRoundTrip(m);
    NatToStringRoundTrip(n);
  }
}

=== FILE: wrappers.dfy ===
/** Optional values. `None` also stands for a Python argument that is not an
    instance of the expected class (`None`, an `int` where a `str` is expected,
    a plain string where an object is expected). */
module Wrappers {

  datatype Option<+T> = None | Some(value: T)
}
